=== FILE: README.md ===
# lb-update, modelled in Dafny

`lb-update` keeps the model definitions of a LoopBack application in step
with a MySQL database. It offers three commands on a datasource:

- **add** creates a model definition file for each discovered table that has
  no model yet, and registers the model in `server/model-config.json`.
- **update** reconciles existing model definitions with their tables' schemas.
- **delete** removes the models whose tables have disappeared.

All three derive names through the string transforms in `tools.js`:

- table names are snake case (`user_account`);
- model names are Pascal case (`UserAccount`);
- file names are hyphenated (`user-account.json`);
- column names are normalized from camel case (`lastLoginAt`) to underscores (`last_login_at`).

The project models these pieces as pure Dafny functions and proves what they do.

- `results.dfy` (`Results`): the `Option` and `Result` types.
- `names.dfy` (`NameTransform`): the four name transforms.
  - The regular-expression replaces are written as left-to-right scans that resume after each match.
  - The camel-case split is proved equal to a reference definition: a separator after every lower/upper boundary.
  - The underscore join has no reference definition. Its partner is the round trip with the split, proved in both directions: from snake-case table names, and from model names of letters without adjacent capitals.
  - The module also holds concrete counterexamples where the round trip fails.
- `files.dfy` (`ModelFiles`): the path of a model's definition and script files.
- `models.dfy` (`Models`): the shared data and the argument checks.
  - Model definitions, settings, discovered columns, the model configuration.
  - The column rename both add and update perform on a discovered schema.
- `update.dfy` (`Update`): `defaultReplace` and `updateHandler`.
  - Table resolution, then the interleaved rename/create/merge loop over the schema's key snapshot, then the prune of stale properties.
  - Then the handler that reads, reconciles and writes each selected model.
- `add.dfy` (`Add`): `createModel` and `addHandler`.
  - The rename-and-strip loop, table selection, registry insertion, and the configuration write that happens only when every model was created.
- `delete.dfy` (`Delete`): the confirmation prompt and the choice of doomed models.
  - The confirmation prompt uses `String.prototype.trim` with the full set of JavaScript white-space characters.
  - The registry removal, and the unlinks of the two files per model.

The key loops over a schema's columns are folds over the key sequence.

- A normalized name can collide with another column. A column renamed onto a name replaces whatever that name holds, including a column already in underscore form, whether it comes before or after. This is what the sequential map updates of the source do.
- Properties that hold for every schema are proved without assuming distinct names.
- The properties that need distinct names carry the precondition `DistinctNormalized`.

The rename folds are written over any idempotent normalizer. `CamelToUnderscore` is plugged in at the top, through `Models.CamelToUnderscoreIsIdempotent`.

Discovery, files and the user are parameters.

- Discovered schemas are maps from table name to columns. The discovered table list is an `Option`, whose `None` is a failed discovery.
- Model definition files are a map from path to definition. The files delete unlinks are a set of paths.
- The model configuration is a map from model name to entry.
- The confirmation is the input string.

The `properties` flag is a parameter `copyAll`. Both add and update read `commander.properties`, but neither script registers a `--properties` option, so in practice it is unset.

In update, a setting is copied only when its value differs, and one write is counted per copied setting.

- `Update.MergeSettings` writes this as `current + Copied(reported)`. That gives the same settings, because rewriting an equal value changes nothing.
- The write count is the size of `Update.Changed`, the set of settings whose value differs.

## Model

| member | source | states |
|---|---|---|
| NameTransform.PascalToHyphen | tools.js:34-36 | The file name of a model: the camel-case split with `-`, then lower case; specified by `NameTransform.SplitCamelSeparatesEveryBoundary`, `NameTransform.PascalToHyphenShape` and `NameTransform.HyphenAndUnderscoreDifferOnlyInSeparator` |
| NameTransform.PascalToUnderscore | tools.js:38-40 | The default table name of a model: the camel-case split with `_`, then lower case; specified by `NameTransform.HyphenAndUnderscoreDifferOnlyInSeparator` and the two round-trip lemmas |
| NameTransform.CamelToUnderscore | tools.js:50-52 | The property name of a column, the same function as `PascalToUnderscore`; specified by `NameTransform.CamelToUnderscoreShape` and `NameTransform.CamelToUnderscoreIdempotent` |
| NameTransform.UnderscoreToPascal | tools.js:42-48 | The model name of a table: each `_` before a lower-case letter joined into a capital, then the first character upper-cased; specified by `NameTransform.UnderscoreToPascalShape` and the two round-trip lemmas |
| NameTransform.SplitCamelSeparatesEveryBoundary | tools.js:35 | The non-overlapping replace of `([a-z])([A-Z])` puts a separator after every lower-case letter that is followed by an upper-case one, and nowhere else: it equals the reference definition that looks at each position on its own |
| NameTransform.PascalToHyphenShape | tools.js:34-36 | A file name holds no upper-case letter and is longer than the model name by exactly the number of lower/upper boundaries |
| NameTransform.HyphenAndUnderscoreDifferOnlyInSeparator | tools.js:38-40 | PascalToUnderscore and CamelToUnderscore are the same function, and PascalToHyphen differs from it only where it writes `-` instead of `_` |
| NameTransform.CamelToUnderscoreShape | tools.js:50-52 | A normalized column name holds no upper-case letter and is longer than the input by exactly the number of lower/upper boundaries |
| NameTransform.CamelToUnderscoreIdempotent | tools.js:50-52 | Normalizing a normalized column name changes nothing |
| NameTransform.UnderscoreToPascalShape | tools.js:42-48 | A model name derived from a non-empty table name is non-empty and no longer than it, starts with a character that is not lower case (the upper-cased first letter), and has no `_` before a lower-case letter |
| NameTransform.UnderscorePascalRoundTrip | tools.js:38-48 | For a snake-case table name, turning it into a model name and back gives the table name again |
| NameTransform.PascalUnderscoreRoundTrip | tools.js:38-48 | For a model name of ASCII letters that starts with a capital and has no two adjacent capitals, turning it into a table name and back gives the model name again |
| NameTransform.DigitBreaksPascalRoundTrip | tools.js:38-48 | `User1Name` becomes the table name `user1name` and then the model name `User1name`: a digit before a capital breaks the round trip from model names |
| NameTransform.DigitBreaksRoundTrip | tools.js:43-46 | `user1_name` becomes the model name `User1Name` |
| NameTransform.DigitBreaksRoundTripBack | tools.js:39 | `User1Name` becomes the table name `user1name`, so the round trip from `user1_name` fails |
| NameTransform.AcronymBreaksRoundTrip | tools.js:39 | `AB` becomes the table name `ab`, which turns back into `Ab`, not `AB` |
| NameTransform.ShortWordBreaksRoundTrip | tools.js:43 | `a_b` becomes `AB` and then `ab`: a one-letter word before an underscore breaks the round trip |
| NameTransform.ExampleFileName | tools.js:35 | `UserAccount` is stored as `user-account` |
| NameTransform.ExampleTableName | tools.js:38-48 | `UserAccount` looks up the table `user_account`, and that table yields the model `UserAccount` |
| NameTransform.ExampleColumnName | tools.js:51 | The column `lastLoginAt` becomes the property `last_login_at` |
| ModelFiles.JsonStemOfPath | tools.js:9-10 | A definition path is the models directory, the hyphenated model name and `.json`, and the hyphenated name can be read back from it |
| ModelFiles.SameJsonPath | tools.js:55 | Reading and writing use one path function, and two model names share a definition file exactly when their hyphenated names agree |
| ModelFiles.JsonIsNotScript | lb-update-delete.js:17-21 | A model's definition file is never the script file of any model |
| ModelFiles.AcronymSharesFile | tools.js:35 | The models `AB` and `Ab` share one definition file |
| Models.RenameAll | lb-update-update.js:30-36 | The rename loop over the schema's key snapshot, in key order; specified by `Models.RenameAllKeys`, `Models.RenameAllFrame`, `Models.RenameAllValues` and `Models.RenameAllOrigin` |
| Models.RenameAllKeys | lb-update-update.js:30-36 | After the rename loop the schema's keys are the untouched keys plus the normalized names of the visited ones, even when names collide |
| Models.RenameAllFrame | lb-update-update.js:32-34 | A key that is neither visited nor a normalized name keeps its settings |
| Models.RenameAllValues | lb-update-update.js:32-34 | When no two columns collide, each normalized name holds its own column's settings |
| Models.RenameAllOrigin | lb-update-update.js:30-36 | After the rename loop, collisions included, every name holds either its own settings, when it was never visited, or the settings of some visited key that normalizes onto it |
| Models.RenamedOrigin | lb-update-update.js:30-36 | After the renames of a discovered schema, every name holds the settings of some column whose normalized name it is |
| Models.CheckDatasource | lb-update-delete.js:73-75 | A command proceeds only for a configured datasource, and otherwise fails naming it |
| Models.CheckArgs | lb-update-add.js:86-92 | Add and update proceed exactly when the datasource is configured and model names are given or `--all` is set; the datasource error takes precedence |
| Update.ResolveTable | lb-update-update.js:14-20 | The table is `mysql.table` when given, else `options.mysql.table`, else the underscore form of the model name; a model with neither `mysql` nor `options` fails |
| Update.DefaultTableRoundTrip | lb-update-update.js:19-20 | A model named after a snake-case table, with no explicit table, is matched back to that table |
| Update.MergeSettings | lb-update-update.js:41-48 | Every synchronised setting the column reports ends up with the column's value; every other setting, including unsynchronised reported ones, keeps its old value or stays absent |
| Update.NoChangeIff | lb-update-update.js:43-45 | The merge leaves the settings as they were exactly when no synchronised setting differs |
| Update.MergeSettingsIdempotent | lb-update-update.js:43-45 | Merging the same column again changes nothing and finds nothing to write |
| Update.VisitAll | lb-update-update.js:30-48 | The column loop of `defaultReplace`, renaming, creating and merging each column in turn; specified by the `Update.VisitAll…` lemma rows below |
| Update.VisitAllSchema | lb-update-update.js:30-36 | The interleaved loop renames the schema exactly as the rename fold alone does |
| Update.VisitAllPropertyNames | lb-update-update.js:37-40 | The loop adds a property for every normalized column name and no other |
| Update.VisitAllInSync | lb-update-update.js:41-47 | After the loop every normalized name's property agrees with the final schema on every synchronised setting, whatever collisions overwrote |
| Update.VisitAllKeepsUnsynced | lb-update-update.js:43 | The loop never changes a setting outside the synchronised set |
| Update.VisitAllDistinct | lb-update-update.js:30-48 | Without collisions each property is its old settings merged with its own column's settings |
| Update.VisitAllWrites | lb-update-update.js:43-46 | Without collisions the write count never decreases, and it stays the same exactly when no column changes its property |
| Update.Reconcile | lb-update-update.js:10-61 | Only `properties` changes; the property names are exactly the normalized column names; the schema is the discovered columns after the rename loop; each property matches that schema on synchronised settings and keeps the rest; the pruned names are the old ones without a column |
| Update.ReconcileDistinct | lb-update-update.js:30-48 | Without collisions each property is the old property, or an empty one, merged with its column, and zero writes are reported exactly when no merge changes anything |
| Update.ReconcileIdempotent | lb-update-update.js:44-46 | Reconciling the result again against the same schema gives an equal model, zero writes and nothing pruned |
| Update.OnDatasource | lb-update-update.js:65-67 | A loaded model is chosen exactly when its configuration names the datasource given |
| Update.FirstUnset | lb-update-update.js:65-67 | The scan stops at the first loaded model whose configuration gives no datasource, and every model before it gives one |
| Update.UpdateTargets | lb-update-update.js:64-79 | With `--all` and every model giving a datasource, the targets are the loaded models on the datasource; with a model that gives none, the targets are the models on the datasource before the first such model, and the scan fails naming it; without `--all`, the names given |
| Update.UpdateHandler | lb-update-update.js:63-80 | The files are those the model loop writes; the command succeeds exactly when the loop does and, with `--all`, every loaded model gives a datasource |
| Update.UpdateOne | lb-update-update.js:10-28 | A missing definition file is a failure naming its path; a model whose table cannot be resolved fails as `Update.ResolveTable` does; a table that discovery does not know is a failure naming it; otherwise the result is the read model reconciled with that table's columns, so it carries every guarantee of `Update.Reconcile` |
| Update.UpdateModels | lb-update-update.js:65-78 | The handler loop: each target is read, reconciled and written to the path of its result's name, and the first failure ends the run; specified by `Update.UpdateModelsConsistent`, `Update.UpdateModelsFrame` and `Update.UpdateModelsComplete` |
| Update.UpdateModelsConsistent | lb-update-update.js:68-70 | When every definition file holds the model its path is named after, writing each result to the path of its own name creates no file and keeps every file named after its model |
| Update.UpdateModelsFrame | lb-update-update.js:74-78 | When every definition file holds the model its path is named after, a file that belongs to no target is left untouched |
| Update.UpdateModelsComplete | lb-update-update.js:63-80 | When every definition file holds the model its path is named after and the run completes, every target's file has exactly the normalized column names of its table |
| Add.StripAll | lb-update-add.js:32-44 | The rename-and-strip loop of `createModel`; specified by `Add.StripAllIsStripAfterRename`, which equates it with renaming first and stripping each property afterwards |
| Add.Strip | lb-update-add.js:40-44 | A new property keeps exactly the reported settings line 41 does not delete, with their reported values |
| Add.StripAllWhenCopyAll | lb-update-add.js:41 | With the `properties` flag set every setting is deleted |
| Add.StripAllIsStripAfterRename | lb-update-add.js:32-44 | Stripping each property as the loop reaches it equals renaming all columns first and stripping every property afterwards |
| Add.NewPropertiesShape | lb-update-add.js:32-44 | A new model has one property per normalized column name, each keeps only default settings, and none at all with the flag set |
| Add.NewPropertiesValues | lb-update-add.js:40-44 | Without collisions each property holds exactly its column's kept settings with their discovered values |
| Add.CreateModel | lb-update-add.js:24-50 | The schema is looked up under the underscore form of the model name; a failed lookup is fatal; a created model carries the discovered name and options, no `mysql` setting and no other field, and exactly the renamed and stripped properties, one per normalized column name |
| Add.CreateModelFindsTable | lb-update-add.js:26 | A model named after a snake-case table looks up that very table |
| Add.AddHandler | lb-update-add.js:52-76 | A failed discovery changes nothing; whenever the run fails the configuration is not written |
| Add.AddLoop | lb-update-add.js:56-73 | The table loop of `addHandler`; specified by `Add.AddLoopFails`, `Add.AddLoopCreated`, `Add.AddLoopRegisters` and `Add.AddLoopFiles` |
| Add.AddLoopFails | lb-update-add.js:56-67 | The run fails exactly when some wanted model's underscore name is not a discovered table, and the failure names the datasource |
| Add.AddLoopCreated | lb-update-add.js:56-67 | A completed run creates exactly the models whose names come from a table, were asked for or `--all`, and are not loaded |
| Add.AddLoopRegisters | lb-update-add.js:69 | A completed run adds exactly the created models to the configuration, each with this datasource and public, and leaves every other entry unchanged |
| Add.AddLoopFiles | lb-update-add.js:71 | Files are written only at the paths of created models, every file written holds a stripped model, and every other file is untouched, failure or not |
| Add.AddSnakeCaseTables | lb-update-add.js:56-75 | When every table is in snake case and discoverable, add completes and registers every wanted model |
| Delete.Confirmed | lb-update-delete.js:44 | The trimmed input is `yes` or `y`; specified by `Delete.ConfirmedIff` |
| Delete.TableModelNames | lb-update-delete.js:48-51 | One model name per discovered table, in table order, each the table name turned into a model name |
| Delete.TrimIsPadded | lb-update-delete.js:44 | Trimming gives a word exactly when the input is that word surrounded only by white space |
| Delete.ConfirmedIff | lb-update-delete.js:44 | The deletion goes ahead exactly when the input is `yes` or `y` with only white space around it |
| Delete.Doomed | lb-update-delete.js:52-54 | A model is deleted exactly when it is loaded on the datasource and no table yields its name |
| Delete.FirstUnchecked | lb-update-delete.js:54 | The scan stops at the first loaded model that no table yields and whose configuration gives no datasource; every model before it is yielded by a table or gives a datasource |
| Delete.FirstUncheckedIff | lb-update-delete.js:52-54 | The scan reaches the end exactly when every model that no table yields gives a datasource |
| Delete.DoomedSpares | lb-update-delete.js:54 | A model on another datasource, or one a table still yields, is never deleted |
| Delete.UnlinkAll | lb-update-delete.js:18-24 | After the unlinks exactly the targeted paths are gone |
| Delete.DeleteFiles | lb-update-delete.js:15-27 | After deletion exactly the definition and script files of the deleted models are gone |
| Delete.DeleteFilesSucceeds | lb-update-delete.js:18-20 | No definition unlink fails exactly when every deleted model's definition file exists and no two deleted models share one |
| Delete.DeleteHandler | lb-update-delete.js:41-66 | Without confirmation nothing changes; a failed discovery changes nothing; when every model the scan must check gives a datasource, the deleted models are exactly the doomed ones, the configuration loses exactly them and keeps every other entry, and only a missing definition file can fail; otherwise the models doomed before the first model without a datasource are deleted, the configuration is unchanged, and the failure names that model; the files lose exactly the deleted models' files |
| Delete.DeleteKeeps | lb-update-delete.js:52-60 | After a confirmed deletion an entry stays exactly when a model without a datasource stopped the scan, a table yields its name, or no loaded model of that name is on the datasource |
| Delete.DeleteFails | lb-update-delete.js:54-56 | A confirmed deletion fails exactly when a model without a datasource stops the scan, or some doomed model's definition file is missing or shared |

## Left out

- Reading and writing files, and JSON parsing and pretty-printing, are left out. Definition files are a map from path to model, and the configuration is a map; unparsable JSON is not modelled.
- The failure to read `server/model-config.json` is left out. It is an I/O error before any logic runs.
- The discovery library (`discoverSchema`, `discoverModelDefinitions`) is an input.
  - Its failures are modelled only as error results: a missing schema, a missing table list.
  - The model name and options it proposes for a table are inputs.
- Promises, `await`, exceptions thrown inside callbacks and process exit codes are modelled only as their outcomes.
  - A failure ends the run and keeps what was already written.
  - The exit code 0 after a declined prompt is the run with nothing changed.
- Delete.DeleteHandler: handles one chunk of standard input. The source handles each `data` event separately, and may see a line in pieces.
- Delete.DeleteHandler: attempts every unlink and reports the first missing definition file. In the source the callbacks run after the configuration is written, in an order the event loop decides. The first thrown error ends the process before later callbacks print anything.
- Delete.DeleteHandler: when a model without a datasource ends the scan, the unlinks already issued for earlier models count as done and that failure is the one reported. The source throws before any unlink callback runs; whether the file system completes an unlink issued just before the process ends is not modelled.
- Console messages are left out, including the warning for a missing script file. Missing script paths are kept in `Unlinked.absent` and never fail a run.
- Case conversion covers ASCII letters only. JavaScript's full Unicode `toLowerCase` and `toUpperCase` are not modelled.
- Object identity is left out: setting values are a datatype compared structurally. The source's `!==` compares nested objects by reference.
- Truthiness is modelled only as present or absent:
  - an explicit `mysql` object without `table`;
  - a falsy property value;
  - a model whose `properties` is missing.
- The first character of an empty table name is not handled in the source: `UnderscoreToPascal` would throw. Table names are the non-empty `Models.TableName`.
- NameTransform.UnderscorePascalRoundTrip: holds only for snake case where every word but the last has at least two letters. The one-letter word of `a_b` breaks it (`NameTransform.ShortWordBreaksRoundTrip`).
- NameTransform.PascalUnderscoreRoundTrip: holds only for model names of ASCII letters with no two adjacent capitals. A digit before a capital (`NameTransform.DigitBreaksPascalRoundTrip`) and an acronym (`NameTransform.AcronymBreaksRoundTrip`) break it.
- Update.ReconcileIdempotent: proved only when no two columns normalize to the same name. With a collision, a second run can count writes again, because the loop merges the colliding columns in turn. The equality of the model alone holds with collisions too, but is not proved.
- Update.UpdateModels: `writeModelFile` (tools.js:54-55) writes to the path of the model's own `name`, not the path it was read from. A definition file whose `name` names another model therefore redirects the write to that model's file. The lemmas about the loop assume every file holds the model its path is named after (`Update.Consistent`), and promise nothing otherwise.
- Update.UpdateModelsComplete: states only the property names of each target, not their settings. Settings are covered per model by `Update.Reconcile`, which `Update.UpdateOne` returns for each target.
- Add.AddLoopFiles: says of a written file only that its properties keep default settings alone. The full contents of a created model are stated by `Add.CreateModel`; the loop's contract does not carry them over to the file.
- Add.CreateModel: a table that discovery cannot find is treated as the failure `DatabaseUnavailable`. What the library does for an unknown table name is outside the model.

=== FILE: add.dfy ===
/**
  The add command: for each table the database reports, create a model
  definition from the table's discovered schema, unless the model already
  exists or was not asked for, and register it in the model configuration.
 */
module Add {
  import opened Results
  import opened NameTransform
  import opened ModelFiles
  import opened Models

  /** Whether a created property keeps a setting (lb-update-add.js:41 deletes it otherwise). */
  predicate Kept(setting: string, copyAll: bool) {
    setting in DefaultSettings && !copyAll
  }

  /** The settings of a new property once the unwanted ones are deleted (lb-update-add.js:40-44). */
  function Strip(settings: Settings, copyAll: bool): (r: Settings)
    ensures forall s :: s in r ==> Kept(s, copyAll) && s in settings && r[s] == settings[s]
    ensures forall s :: s in settings && Kept(s, copyAll) ==> s in r
  {
    map s | s in settings && Kept(s, copyAll) :: settings[s]
  }

  /** Stripping twice is stripping once. */
  lemma StripIdempotent(settings: Settings, copyAll: bool)
    ensures Strip(Strip(settings, copyAll), copyAll) == Strip(settings, copyAll)
  {
  }

  /** With the `properties` flag set, line 41 deletes every setting. */
  lemma StripAllWhenCopyAll(settings: Settings)
    ensures Strip(settings, true) == map[]
  {
  }

  /** The settings of every property stripped. */
  function StripEach(schema: map<string, Settings>, copyAll: bool): (r: map<string, Settings>)
    ensures r.Keys == schema.Keys
  {
    map x | x in schema :: Strip(schema[x], copyAll)
  }

  /**
    One key of the createModel loop (lb-update-add.js:32-44): the rename, then the strip
    of the property under the normalized name.
   */
  function StripStep(schema: map<string, Settings>, k: string, norm: string -> string, copyAll: bool): (r: map<string, Settings>)
    requires k in schema
    ensures r.Keys == Rename(schema, k, norm).Keys
  {
    var renamed := Rename(schema, k, norm);
    var n := norm(k);
    renamed[n := Strip(renamed[n], copyAll)]
  }

  /** The createModel loop over the key snapshot. */
  function StripAll(keys: seq<string>, schema: map<string, Settings>, norm: string -> string, copyAll: bool): map<string, Settings>
    requires Pending(keys, schema)
    decreases |keys|
  {
    if keys == [] then schema
    else
      PendingAfterRename(keys, schema, norm);
      StripAll(keys[1..], StripStep(schema, keys[0], norm, copyAll), norm, copyAll)
  }

  /** Two objects with the same keys whose properties strip to the same settings. */
  predicate SameAfterStrip(a: map<string, Settings>, b: map<string, Settings>, copyAll: bool) {
    a.Keys == b.Keys && forall x :: x in a ==> Strip(a[x], copyAll) == Strip(b[x], copyAll)
  }

  lemma RenameSameAfterStrip(a: map<string, Settings>, b: map<string, Settings>, k: string, norm: string -> string, copyAll: bool)
    requires k in a && SameAfterStrip(a, b, copyAll)
    ensures SameAfterStrip(Rename(a, k, norm), Rename(b, k, norm), copyAll)
  {
  }

  /** The renames move settings around without looking at them. */
  lemma {:induction false} RenameAllSameAfterStrip(keys: seq<string>, a: map<string, Settings>, b: map<string, Settings>, norm: string -> string, copyAll: bool)
    requires Pending(keys, a) && SameAfterStrip(a, b, copyAll)
    ensures Pending(keys, b)
    ensures StripEach(RenameAll(keys, a, norm), copyAll) == StripEach(RenameAll(keys, b, norm), copyAll)
    decreases |keys|
  {
    if keys != [] {
      PendingAfterRename(keys, a, norm);
      RenameSameAfterStrip(a, b, keys[0], norm, copyAll);
      RenameAllSameAfterStrip(keys[1..], Rename(a, keys[0], norm), Rename(b, keys[0], norm), norm, copyAll);
    } else {
      assert StripEach(a, copyAll) == StripEach(b, copyAll);
    }
  }

  /** Every property not still to visit is already stripped. */
  predicate StrippedOutside(schema: map<string, Settings>, keys: seq<string>, copyAll: bool) {
    forall x :: x in schema && x !in keys ==> Strip(schema[x], copyAll) == schema[x]
  }

  lemma StripStepKeepsStripped(keys: seq<string>, schema: map<string, Settings>, norm: string -> string, copyAll: bool)
    requires |keys| > 0 && Pending(keys, schema) && StrippedOutside(schema, keys, copyAll)
    ensures StrippedOutside(StripStep(schema, keys[0], norm, copyAll), keys[1..], copyAll)
    ensures SameAfterStrip(StripStep(schema, keys[0], norm, copyAll), Rename(schema, keys[0], norm), copyAll)
  {
    var k := keys[0];
    var n := norm(k);
    var s1 := StripStep(schema, k, norm, copyAll);
    var r1 := Rename(schema, k, norm);
    forall x | x in s1 && x !in keys[1..]
      ensures Strip(s1[x], copyAll) == s1[x]
    {
      if x == n {
        StripIdempotent(r1[n], copyAll);
      } else {
        assert x != k && x in schema && x !in keys;
      }
    }
    forall x | x in s1
      ensures Strip(s1[x], copyAll) == Strip(r1[x], copyAll)
    {
      if x == n {
        StripIdempotent(r1[n], copyAll);
      }
    }
  }

  /**
    Stripping each property as the loop reaches it gives the same object as
    renaming everything first and stripping every property afterwards.
   */
  lemma {:induction false} StripAllIsStripAfterRename(keys: seq<string>, schema: map<string, Settings>, norm: string -> string, copyAll: bool)
    requires Pending(keys, schema) && StrippedOutside(schema, keys, copyAll)
    ensures StripAll(keys, schema, norm, copyAll) == StripEach(RenameAll(keys, schema, norm), copyAll)
    decreases |keys|
  {
    if keys == [] {
      assert StripEach(schema, copyAll) == schema;
    } else {
      var s1 := StripStep(schema, keys[0], norm, copyAll);
      var r1 := Rename(schema, keys[0], norm);
      PendingAfterRename(keys, schema, norm);
      StripStepKeepsStripped(keys, schema, norm, copyAll);
      StripAllIsStripAfterRename(keys[1..], s1, norm, copyAll);
      RenameAllSameAfterStrip(keys[1..], s1, r1, norm, copyAll);
    }
  }

  /** A schema as discovery reports it: the model name it proposes, its options and its columns. */
  datatype Schema = Schema(name: string, options: Option<ModelOptions>, columns: seq<Column>)

  /** Discovered schemas, by table name; their columns come from one JSON object. */
  predicate WellFormedSchemas(schemas: map<string, Schema>) {
    forall t :: t in schemas ==> UniqueNames(schemas[t].columns)
  }

  /** The properties of a new model built from a table's columns. */
  function NewProperties(cols: seq<Column>, copyAll: bool): Properties
    requires UniqueNames(cols)
  {
    NamesAreKeys(cols);
    StripAll(Names(cols), ColumnMap(cols), CamelToUnderscore, copyAll)
  }

  /** Every setting of every property is one line 41 keeps. */
  predicate OnlyKept(props: Properties, copyAll: bool) {
    forall n, s :: n in props && s in props[n] ==> Kept(s, copyAll)
  }

  /**
    A new model has one property per underscore column name, and each keeps
    only the default settings, none at all when the `properties` flag is set
    (lb-update-add.js:32-44).
   */
  lemma NewPropertiesShape(cols: seq<Column>, copyAll: bool)
    requires UniqueNames(cols)
    ensures NewProperties(cols, copyAll).Keys == NormalizedNames(cols)
    ensures OnlyKept(NewProperties(cols, copyAll), copyAll)
    ensures copyAll ==> forall n :: n in NewProperties(cols, copyAll) ==> NewProperties(cols, copyAll)[n] == map[]
  {
    NamesAreKeys(cols);
    CamelToUnderscoreIsIdempotent();
    StripAllIsStripAfterRename(Names(cols), ColumnMap(cols), CamelToUnderscore, copyAll);
    RenameAllKeys(Names(cols), ColumnMap(cols), CamelToUnderscore);
  }

  /**
    When no two columns share an underscore name, each property holds exactly
    its column's default settings with their discovered values.
   */
  lemma NewPropertiesValues(cols: seq<Column>, copyAll: bool)
    requires UniqueNames(cols) && DistinctNormalized(cols)
    ensures forall i :: 0 <= i < |cols| ==>
              CamelToUnderscore(cols[i].name) in NewProperties(cols, copyAll)
              && NewProperties(cols, copyAll)[CamelToUnderscore(cols[i].name)] == Strip(cols[i].settings, copyAll)
  {
    NamesAreKeys(cols);
    ColumnMapValues(cols);
    CamelToUnderscoreIsIdempotent();
    StripAllIsStripAfterRename(Names(cols), ColumnMap(cols), CamelToUnderscore, copyAll);
    RenameAllValues(Names(cols), ColumnMap(cols), CamelToUnderscore);
  }

  /**
    createModel (lb-update-add.js:24-50): the schema of table PascalToUnderscore(name)
    is discovered and its properties renamed and stripped; a failed discovery
    is fatal.
   */
  function CreateModel(modelName: string, datasource: string, schemas: map<string, Schema>, copyAll: bool): (r: Result<ModelDef, Failure>)
    requires WellFormedSchemas(schemas)
    ensures r.Err? <==> PascalToUnderscore(modelName) !in schemas
    ensures r.Err? ==> r.error == DatabaseUnavailable(datasource)
    ensures r.Ok? ==> r.value.name == schemas[PascalToUnderscore(modelName)].name
                      && r.value.properties.Keys == NormalizedNames(schemas[PascalToUnderscore(modelName)].columns)
                      && OnlyKept(r.value.properties, copyAll)
    ensures r.Ok? ==> var schema := schemas[PascalToUnderscore(modelName)];
                      && r.value.mysql.None?
                      && r.value.options == schema.options
                      && r.value.other == map[]
                      && r.value.properties == NewProperties(schema.columns, copyAll)
  {
    var table := PascalToUnderscore(modelName);
    if table !in schemas then Err(DatabaseUnavailable(datasource))
    else
      var schema := schemas[table];
      NewPropertiesShape(schema.columns, copyAll);
      Ok(ModelDef(schema.name, None, schema.options, NewProperties(schema.columns, copyAll), map[]))
  }

  /** A model built from a table in snake case is built from that very table (lb-update-add.js:26, 57). */
  lemma CreateModelFindsTable(t: string, datasource: string, schemas: map<string, Schema>, copyAll: bool)
    requires WellFormedSchemas(schemas) && SnakeCase(t) && t in schemas
    ensures CreateModel(UnderscoreToPascal(t), datasource, schemas, copyAll).Ok?
    ensures CreateModel(UnderscoreToPascal(t), datasource, schemas, copyAll).value.properties.Keys == NormalizedNames(schemas[t].columns)
  {
    UnderscorePascalRoundTrip(t);
  }

  /** What the add command was asked for. */
  datatype Request = Request(datasource: string, modelNames: seq<string>, all: bool, loaded: set<string>)

  /**
    A model name derived from a table is created when it was asked for (or
    `--all` is set) and the application has not loaded a model of that name
    (lb-update-add.js:59-66).
   */
  predicate Selected(name: string, req: Request) {
    (name in req.modelNames || req.all) && name !in req.loaded
  }

  /** The names the add command wants to create from these tables. */
  function Wanted(tables: seq<TableName>, req: Request): (r: set<string>)
    ensures forall x :: x in r ==> Selected(x, req)
  {
    set t | t in tables && Selected(UnderscoreToPascal(t), req) :: UnderscoreToPascal(t)
  }

  /** The table a model name is looked up under is discovered. */
  predicate Discoverable(name: string, schemas: map<string, Schema>) {
    PascalToUnderscore(name) in schemas
  }

  /** The new model files, the in-memory configuration, the names created, and the failure that ended the run. */
  datatype AddRun = AddRun(files: map<string, ModelDef>, registry: Registry, created: seq<string>, failure: Option<Failure>)

  /**
    The handler loop (lb-update-add.js:56-73): each selected table's model is created,
    given a configuration entry and written; a failure ends the run.
   */
  function AddLoop(tables: seq<TableName>, req: Request, schemas: map<string, Schema>, copyAll: bool,
                   files: map<string, ModelDef>, registry: Registry, created: seq<string>): AddRun
    requires WellFormedSchemas(schemas)
    decreases |tables|
  {
    if tables == [] then AddRun(files, registry, created, None)
    else
      var name := UnderscoreToPascal(tables[0]);
      if !Selected(name, req) then AddLoop(tables[1..], req, schemas, copyAll, files, registry, created)
      else
        match CreateModel(name, req.datasource, schemas, copyAll)
        case Err(e) => AddRun(files, registry, created, Some(e))
        case Ok(m) =>
          AddLoop(tables[1..], req, schemas, copyAll, files[JsonPath(m.name) := m],
                  registry[name := RegistryEntry(req.datasource, true)], created + [name])
  }

  /**
    addHandler (lb-update-add.js:52-76): tables are discovered, the loop runs, and the
    configuration file is written only when the loop completes.
   */
  function AddHandler(discovered: Option<seq<TableName>>, req: Request, schemas: map<string, Schema>, copyAll: bool,
                      files: map<string, ModelDef>, registry: Registry): (r: AddRun)
    requires WellFormedSchemas(schemas)
    ensures discovered.None? ==> r == AddRun(files, registry, [], Some(DatabaseUnavailable(req.datasource)))
    ensures r.failure.Some? ==> r.registry == registry
  {
    if discovered.None? then AddRun(files, registry, [], Some(DatabaseUnavailable(req.datasource)))
    else
      var run := AddLoop(discovered.value, req, schemas, copyAll, files, registry, []);
      if run.failure.None? then run else run.(registry := registry)
  }

  /** The loop fails exactly when a selected table's model name does not lead back to a discovered table. */
  lemma {:induction false} AddLoopFails(tables: seq<TableName>, req: Request, schemas: map<string, Schema>, copyAll: bool,
                                        files: map<string, ModelDef>, registry: Registry, created: seq<string>)
    requires WellFormedSchemas(schemas)
    ensures AddLoop(tables, req, schemas, copyAll, files, registry, created).failure.None? <==>
            forall x :: x in Wanted(tables, req) ==> Discoverable(x, schemas)
    ensures AddLoop(tables, req, schemas, copyAll, files, registry, created).failure.Some? ==>
            AddLoop(tables, req, schemas, copyAll, files, registry, created).failure == Some(DatabaseUnavailable(req.datasource))
    decreases |tables|
  {
    if tables != [] {
      var name := UnderscoreToPascal(tables[0]);
      WantedCons(tables, req);
      var one := CreateModel(name, req.datasource, schemas, copyAll);
      if !Selected(name, req) {
        AddLoopFails(tables[1..], req, schemas, copyAll, files, registry, created);
      } else if one.Ok? {
        AddLoopFails(tables[1..], req, schemas, copyAll, files[JsonPath(one.value.name) := one.value],
                     registry[name := RegistryEntry(req.datasource, true)], created + [name]);
      }
    }
  }

  lemma WantedCons(tables: seq<TableName>, req: Request)
    requires |tables| > 0
    ensures Selected(UnderscoreToPascal(tables[0]), req) ==>
              Wanted(tables, req) == {UnderscoreToPascal(tables[0])} + Wanted(tables[1..], req)
    ensures !Selected(UnderscoreToPascal(tables[0]), req) ==> Wanted(tables, req) == Wanted(tables[1..], req)
  {
    assert forall t :: t in tables <==> t == tables[0] || t in tables[1..];
  }

  /** The configuration entry every created model gets (lb-update-add.js:69). */
  function Entries(names: set<string>, datasource: string): (r: Registry)
    ensures r.Keys == names
    ensures forall x :: x in r ==> r[x] == RegistryEntry(datasource, true)
  {
    map x | x in names :: RegistryEntry(datasource, true)
  }

  /** A completed loop creates exactly the wanted models. */
  lemma {:induction false} AddLoopCreated(tables: seq<TableName>, req: Request, schemas: map<string, Schema>, copyAll: bool,
                                          files: map<string, ModelDef>, registry: Registry, created: seq<string>)
    requires WellFormedSchemas(schemas)
    ensures var r := AddLoop(tables, req, schemas, copyAll, files, registry, created);
            r.failure.None? ==> forall x :: x in r.created <==> x in created || x in Wanted(tables, req)
    decreases |tables|
  {
    if tables != [] {
      var name := UnderscoreToPascal(tables[0]);
      WantedCons(tables, req);
      var one := CreateModel(name, req.datasource, schemas, copyAll);
      if !Selected(name, req) {
        AddLoopCreated(tables[1..], req, schemas, copyAll, files, registry, created);
      } else if one.Ok? {
        AddLoopCreated(tables[1..], req, schemas, copyAll, files[JsonPath(one.value.name) := one.value],
                       registry[name := RegistryEntry(req.datasource, true)], created + [name]);
      }
    }
  }

  /** Adding one name's entry first and the rest's afterwards adds all of them. */
  lemma EntriesCons(registry: Registry, name: string, names: set<string>, datasource: string)
    ensures registry[name := RegistryEntry(datasource, true)] + Entries(names, datasource)
            == registry + Entries({name} + names, datasource)
  {
  }

  /**
    A completed loop adds exactly the wanted models' entries to the
    configuration (lb-update-add.js:69); every other entry is unchanged.
   */
  lemma {:induction false} AddLoopRegisters(tables: seq<TableName>, req: Request, schemas: map<string, Schema>, copyAll: bool,
                                            files: map<string, ModelDef>, registry: Registry, created: seq<string>)
    requires WellFormedSchemas(schemas)
    ensures var r := AddLoop(tables, req, schemas, copyAll, files, registry, created);
            r.failure.None? ==> r.registry == registry + Entries(Wanted(tables, req), req.datasource)
    decreases |tables|
  {
    if tables != [] {
      var name := UnderscoreToPascal(tables[0]);
      WantedCons(tables, req);
      var one := CreateModel(name, req.datasource, schemas, copyAll);
      if !Selected(name, req) {
        AddLoopRegisters(tables[1..], req, schemas, copyAll, files, registry, created);
      } else if one.Ok? {
        var registry1 := registry[name := RegistryEntry(req.datasource, true)];
        AddLoopRegisters(tables[1..], req, schemas, copyAll, files[JsonPath(one.value.name) := one.value],
                         registry1, created + [name]);
        assert AddLoop(tables, req, schemas, copyAll, files, registry, created)
               == AddLoop(tables[1..], req, schemas, copyAll, files[JsonPath(one.value.name) := one.value], registry1, created + [name]);
        assert Wanted(tables, req) == {name} + Wanted(tables[1..], req);
        EntriesCons(registry, name, Wanted(tables[1..], req), req.datasource);
      }
    }
  }

  /** The file paths the loop may write: one per wanted model whose table is discovered. */
  function Written(tables: seq<TableName>, req: Request, schemas: map<string, Schema>): set<string>
  {
    set t | t in tables && Selected(UnderscoreToPascal(t), req) && Discoverable(UnderscoreToPascal(t), schemas)
      :: JsonPath(schemas[PascalToUnderscore(UnderscoreToPascal(t))].name)
  }

  /** A file holding a model the add command created. */
  predicate Created(m: ModelDef, copyAll: bool) {
    OnlyKept(m.properties, copyAll)
  }

  /**
    The loop writes files only at the paths of the models it creates, and
    every file it writes holds a created model; other files are untouched,
    whether or not the run fails.
   */
  lemma {:induction false} AddLoopFiles(tables: seq<TableName>, req: Request, schemas: map<string, Schema>, copyAll: bool,
                                        files: map<string, ModelDef>, registry: Registry, created: seq<string>)
    requires WellFormedSchemas(schemas)
    ensures var r := AddLoop(tables, req, schemas, copyAll, files, registry, created);
            && r.files.Keys <= files.Keys + Written(tables, req, schemas)
            && (forall p :: p in files && p !in Written(tables, req, schemas) ==> p in r.files && r.files[p] == files[p])
            && (forall p :: p in r.files ==> (p in files && r.files[p] == files[p]) || Created(r.files[p], copyAll))
    decreases |tables|
  {
    if tables != [] {
      var name := UnderscoreToPascal(tables[0]);
      WrittenCons(tables, req, schemas);
      var one := CreateModel(name, req.datasource, schemas, copyAll);
      if !Selected(name, req) {
        AddLoopFiles(tables[1..], req, schemas, copyAll, files, registry, created);
      } else if one.Ok? {
        AddLoopFiles(tables[1..], req, schemas, copyAll, files[JsonPath(one.value.name) := one.value],
                     registry[name := RegistryEntry(req.datasource, true)], created + [name]);
      }
    }
  }

  lemma WrittenCons(tables: seq<TableName>, req: Request, schemas: map<string, Schema>)
    requires |tables| > 0
    ensures var name := UnderscoreToPascal(tables[0]);
            Written(tables, req, schemas) ==
            (if Selected(name, req) && Discoverable(name, schemas)
             then {JsonPath(schemas[PascalToUnderscore(name)].name)} else {}) + Written(tables[1..], req, schemas)
  {
    assert forall t :: t in tables <==> t == tables[0] || t in tables[1..];
  }

  /**
    When every discovered table is in snake case and has a schema, the add
    command completes and registers every wanted model.
   */
  lemma AddSnakeCaseTables(tables: seq<TableName>, req: Request, schemas: map<string, Schema>, copyAll: bool,
                           files: map<string, ModelDef>, registry: Registry)
    requires WellFormedSchemas(schemas)
    requires forall i :: 0 <= i < |tables| ==> SnakeCase(tables[i]) && tables[i] in schemas
    ensures AddHandler(Some(tables), req, schemas, copyAll, files, registry).failure.None?
    ensures AddHandler(Some(tables), req, schemas, copyAll, files, registry).registry
            == registry + Entries(Wanted(tables, req), req.datasource)
  {
    forall x | x in Wanted(tables, req)
      ensures Discoverable(x, schemas)
    {
      var t :| t in tables && Selected(UnderscoreToPascal(t), req) && UnderscoreToPascal(t) == x;
      UnderscorePascalRoundTrip(t);
    }
    AddLoopFails(tables, req, schemas, copyAll, files, registry, []);
    AddLoopRegisters(tables, req, schemas, copyAll, files, registry, []);
  }
}

=== FILE: delete.dfy ===
/**
  The delete command: after the user confirms, every loaded model on the
  datasource whose name no table of the database yields is removed from the
  model configuration, and its definition and script files are unlinked.
 */
module Delete {
  import opened Results
  import opened NameTransform
  import opened ModelFiles
  import opened Models

  /** The characters `String.prototype.trim` removes: white space and line terminators. */
  predicate IsSpace(c: char) {
    || c == '\t' || c == '\n' || c == '\U{000B}' || c == '\U{000C}' || c == '\r' || c == ' '
    || c == '\U{00A0}' || c == '\U{1680}' || ('\U{2000}' <= c <= '\U{200A}')
    || c == '\U{2028}' || c == '\U{2029}' || c == '\U{202F}' || c == '\U{205F}'
    || c == '\U{3000}' || c == '\U{FEFF}'
  }

  predicate AllSpace(s: string) {
    forall k :: 0 <= k < |s| ==> IsSpace(s[k])
  }

  /** The input without its leading white space. */
  function TrimStart(s: string): (r: string)
    ensures |r| <= |s| && r == s[|s| - |r|..]
    ensures AllSpace(s[..|s| - |r|])
    ensures |r| > 0 ==> !IsSpace(r[0])
    decreases |s|
  {
    if |s| > 0 && IsSpace(s[0]) then TrimStart(s[1..]) else s
  }

  /** The input without its trailing white space. */
  function TrimEnd(s: string): (r: string)
    ensures |r| <= |s| && r == s[..|r|]
    ensures AllSpace(s[|r|..])
    ensures |r| > 0 ==> !IsSpace(r[|r| - 1])
    decreases |s|
  {
    if |s| > 0 && IsSpace(s[|s| - 1]) then TrimEnd(s[..|s| - 1]) else s
  }

  /** `String.prototype.trim`. */
  function Trim(s: string): string {
    TrimEnd(TrimStart(s))
  }

  /** The answer the prompt accepts (lb-update-delete.js:44). */
  predicate Confirmed(input: string) {
    Trim(input) == "yes" || Trim(input) == "y"
  }

  /** The input is the word w surrounded by white space only. */
  ghost predicate Padded(input: string, w: string) {
    exists i, j :: 0 <= i <= j <= |input| && input[i..j] == w && AllSpace(input[..i]) && AllSpace(input[j..])
  }

  /** A word that neither starts nor ends with white space. */
  predicate Word(w: string) {
    |w| > 0 && !IsSpace(w[0]) && !IsSpace(w[|w| - 1])
  }

  lemma TrimStartOfPadded(s: string, i: nat)
    requires i < |s| && AllSpace(s[..i]) && !IsSpace(s[i])
    ensures TrimStart(s) == s[i..]
  {
    var r := TrimStart(s);
    var k := |s| - |r|;
    forall m | 0 <= m < i
      ensures IsSpace(s[m])
    {
      assert s[..i][m] == s[m];
    }
    forall m | 0 <= m < k
      ensures IsSpace(s[m])
    {
      assert s[..k][m] == s[m];
    }
    assert |r| > 0 ==> r[0] == s[k];
  }

  lemma TrimEndOfPadded(s: string, j: nat)
    requires 0 < j <= |s| && AllSpace(s[j..]) && !IsSpace(s[j - 1])
    ensures TrimEnd(s) == s[..j]
  {
    var r := TrimEnd(s);
    forall m | j <= m < |s|
      ensures IsSpace(s[m])
    {
      assert s[j..][m - j] == s[m];
    }
    forall m | |r| <= m < |s|
      ensures IsSpace(s[m])
    {
      assert s[|r|..][m - |r|] == s[m];
    }
    assert |r| > 0 ==> r[|r| - 1] == s[|r| - 1];
  }

  /** Trimming to a word means the input is that word padded with white space. */
  lemma TrimmedIsPadded(input: string, w: string)
    requires Trim(input) == w
    ensures Padded(input, w)
  {
    var a := TrimStart(input);
    var i := |input| - |a|;
    var j := i + |w|;
    assert input[i..j] == a[..|w|];
    assert input[j..] == a[|w|..];
  }

  /** A word padded with white space trims to the word. */
  lemma PaddedIsTrimmed(input: string, w: string, i: nat, j: nat)
    requires Word(w)
    requires i <= j <= |input| && input[i..j] == w && AllSpace(input[..i]) && AllSpace(input[j..])
    ensures Trim(input) == w
  {
    assert input[i] == w[0];
    TrimStartOfPadded(input, i);
    var a := input[i..];
    assert a[j - i - 1] == w[|w| - 1];
    assert a[j - i..] == input[j..];
    TrimEndOfPadded(a, j - i);
    assert a[..j - i] == w;
  }

  /** Trimming yields a word exactly when the input is that word padded with white space. */
  lemma TrimIsPadded(input: string, w: string)
    requires Word(w)
    ensures Trim(input) == w <==> Padded(input, w)
  {
    if Trim(input) == w {
      TrimmedIsPadded(input, w);
    }
    if Padded(input, w) {
      var i, j :| 0 <= i <= j <= |input| && input[i..j] == w && AllSpace(input[..i]) && AllSpace(input[j..]);
      PaddedIsTrimmed(input, w, i, j);
    }
  }

  /** The deletion goes ahead exactly when the input is "yes" or "y" surrounded by white space. */
  lemma ConfirmedIff(input: string)
    ensures Confirmed(input) <==> Padded(input, "yes") || Padded(input, "y")
  {
    TrimIsPadded(input, "yes");
    TrimIsPadded(input, "y");
  }

  /** The model names the database's tables yield (lb-update-delete.js:48-51). */
  function TableModelNames(tables: seq<TableName>): (r: seq<string>)
    ensures |r| == |tables|
    ensures forall i :: 0 <= i < |tables| ==> r[i] == UnderscoreToPascal(tables[i])
  {
    seq(|tables|, i requires 0 <= i < |tables| => UnderscoreToPascal(tables[i]))
  }

  /**
    The loaded models to delete, in load order (lb-update-delete.js:52-54): those on the
    datasource whose name no table yields.
   */
  function Doomed(app: seq<AppModel>, fromDatabase: seq<string>, datasource: string): (r: seq<string>)
    ensures forall x :: x in r <==>
              x !in fromDatabase && exists a :: a in app && a.name == x && a.dataSource == Some(datasource)
  {
    if app == [] then []
    else
      var rest := Doomed(app[1..], fromDatabase, datasource);
      assert forall a :: a in app <==> a == app[0] || a in app[1..];
      if app[0].name !in fromDatabase && app[0].dataSource == Some(datasource) then [app[0].name] + rest else rest
  }

  /**
    The position of the first loaded model that no table yields and whose
    configuration gives no datasource, or the number of models when there is
    none: reading `config.dataSource.name` throws there (lb-update-delete.js:54
    reads it only after the table check).
   */
  function FirstUnchecked(app: seq<AppModel>, fromDatabase: seq<string>): (k: nat)
    ensures k <= |app|
    ensures forall j :: 0 <= j < k ==> app[j].name in fromDatabase || app[j].dataSource.Some?
    ensures k < |app| ==> app[k].name !in fromDatabase && app[k].dataSource.None?
  {
    if app == [] || (app[0].name !in fromDatabase && app[0].dataSource.None?) then 0
    else 1 + FirstUnchecked(app[1..], fromDatabase)
  }

  /** Every loaded model that no table yields gives a datasource. */
  predicate AllChecked(app: seq<AppModel>, fromDatabase: seq<string>) {
    forall a :: a in app ==> a.name in fromDatabase || a.dataSource.Some?
  }

  /** The scan reaches the end exactly when every model it must check gives a datasource. */
  lemma FirstUncheckedIff(app: seq<AppModel>, fromDatabase: seq<string>)
    ensures FirstUnchecked(app, fromDatabase) == |app| <==> AllChecked(app, fromDatabase)
  {
  }


  /** Model names are the keys of `app.models`, hence distinct. */
  predicate UniqueModels(app: seq<AppModel>) {
    forall i, j :: 0 <= i < j < |app| ==> app[i].name != app[j].name
  }

  /** A model on another datasource, and a model a table still yields, is never deleted. */
  lemma DoomedSpares(app: seq<AppModel>, fromDatabase: seq<string>, datasource: string, a: AppModel)
    requires UniqueModels(app) && a in app
    requires a.dataSource != Some(datasource) || a.name in fromDatabase
    ensures a.name !in Doomed(app, fromDatabase, datasource)
  {
    forall b | b in app && b.name == a.name
      ensures b == a
    {
      var i :| 0 <= i < |app| && app[i] == a;
      var j :| 0 <= j < |app| && app[j] == b;
      assert app[i].name == app[j].name;
    }
  }

  /** The files left after the unlinks, and the paths whose unlink failed. */
  datatype Unlinked = Unlinked(remaining: set<string>, missing: seq<string>, absent: seq<string>)

  /** The paths of the definition files of some models. */
  function JsonPaths(names: seq<string>): (r: seq<string>)
    ensures |r| == |names|
    ensures forall i :: 0 <= i < |names| ==> r[i] == JsonPath(names[i])
  {
    seq(|names|, i requires 0 <= i < |names| => JsonPath(names[i]))
  }

  /** The paths of both files of some models. */
  function AllPaths(names: seq<string>): set<string> {
    (set x | x in names :: JsonPath(x)) + (set x | x in names :: ScriptPath(x))
  }

  /** The definition and script paths of a model, the pair of unlinks deleteFile issues. */
  datatype Unlink = Unlink(json: string, script: string)

  function FilePairs(names: seq<string>): (r: seq<Unlink>)
    ensures |r| == |names|
    ensures forall i :: 0 <= i < |names| ==> r[i] == Unlink(JsonPath(names[i]), ScriptPath(names[i]))
  {
    seq(|names|, i requires 0 <= i < |names| => Unlink(JsonPath(names[i]), ScriptPath(names[i])))
  }

  function Paths(pairs: seq<Unlink>): set<string> {
    (set u | u in pairs :: u.json) + (set u | u in pairs :: u.script)
  }

  /**
    The unlinks in the order they are issued (lb-update-delete.js:18-24): both of each
    pair are attempted; a missing first path is a failure, a missing second
    path only a warning.
   */
  function UnlinkAll(files: set<string>, pairs: seq<Unlink>): (r: Unlinked)
    ensures r.remaining == files - Paths(pairs)
    decreases |pairs|
  {
    if pairs == [] then Unlinked(files, [], [])
    else
      var u := pairs[0];
      var rest := UnlinkAll(files - {u.json, u.script}, pairs[1..]);
      assert Paths(pairs) == {u.json, u.script} + Paths(pairs[1..]) by {
        assert forall v :: v in pairs <==> v == pairs[0] || v in pairs[1..];
      }
      Unlinked(rest.remaining,
               (if u.json in files then [] else [u.json]) + rest.missing,
               (if u.script in files then [] else [u.script]) + rest.absent)
  }

  /** Pairwise distinct first paths. */
  predicate DistinctJson(pairs: seq<Unlink>) {
    forall i, j :: 0 <= i < j < |pairs| ==> pairs[i].json != pairs[j].json
  }

  /** No first path of one pair is the second path of another. */
  predicate Separate(pairs: seq<Unlink>) {
    forall i, j :: 0 <= i < |pairs| && 0 <= j < |pairs| ==> pairs[i].json != pairs[j].script
  }

  lemma SeparateTail(pairs: seq<Unlink>)
    requires |pairs| > 0 && Separate(pairs)
    ensures Separate(pairs[1..])
  {
    var rest := pairs[1..];
    forall i, j | 0 <= i < |rest| && 0 <= j < |rest|
      ensures rest[i].json != rest[j].script
    {
      assert rest[i] == pairs[i + 1] && rest[j] == pairs[j + 1];
    }
  }

  /** Every first path present and none repeated: no failure. */
  lemma {:induction false} UnlinkAllSucceedsWhen(files: set<string>, pairs: seq<Unlink>)
    requires Separate(pairs) && DistinctJson(pairs)
    requires forall i :: 0 <= i < |pairs| ==> pairs[i].json in files
    ensures UnlinkAll(files, pairs).missing == []
    decreases |pairs|
  {
    if pairs != [] {
      var u := pairs[0];
      var rest := pairs[1..];
      var files1 := files - {u.json, u.script};
      SeparateTail(pairs);
      forall i | 0 <= i < |rest|
        ensures rest[i].json in files1
      {
        assert rest[i] == pairs[i + 1];
      }
      assert DistinctJson(rest) by {
        forall i, j | 0 <= i < j < |rest|
          ensures rest[i].json != rest[j].json
        {
          assert rest[i] == pairs[i + 1] && rest[j] == pairs[j + 1];
        }
      }
      UnlinkAllSucceedsWhen(files1, rest);
    }
  }

  /** No failure: every first path was present and none repeated. */
  lemma {:induction false} UnlinkAllSucceedsOnlyWhen(files: set<string>, pairs: seq<Unlink>)
    requires Separate(pairs) && UnlinkAll(files, pairs).missing == []
    ensures forall i :: 0 <= i < |pairs| ==> pairs[i].json in files
    ensures DistinctJson(pairs)
    decreases |pairs|
  {
    if pairs != [] {
      var u := pairs[0];
      var rest := pairs[1..];
      var files1 := files - {u.json, u.script};
      SeparateTail(pairs);
      assert |UnlinkAll(files1, rest).missing| == 0;
      UnlinkAllSucceedsOnlyWhen(files1, rest);
      forall i | 0 < i < |pairs|
        ensures pairs[i].json in files && pairs[i].json != u.json
      {
        assert pairs[i] == rest[i - 1];
      }
    }
  }

  /** deleteFile for each doomed model in turn (lb-update-delete.js:15-27). */
  function DeleteFiles(files: set<string>, names: seq<string>): (r: Unlinked)
    ensures r.remaining == files - AllPaths(names)
  {
    var pairs := FilePairs(names);
    assert Paths(pairs) == AllPaths(names) by {
      forall p | p in AllPaths(names) ensures p in Paths(pairs) {
        var x :| x in names && (p == JsonPath(x) || p == ScriptPath(x));
        var i :| 0 <= i < |names| && names[i] == x;
        assert pairs[i] in pairs;
      }
    }
    UnlinkAll(files, pairs)
  }

  /** Pairwise distinct. */
  predicate Distinct(paths: seq<string>) {
    forall i, j :: 0 <= i < j < |paths| ==> paths[i] != paths[j]
  }

  /**
    No definition unlink fails exactly when every model's definition file
    exists and no two models share one.
   */
  lemma DeleteFilesSucceeds(files: set<string>, names: seq<string>)
    ensures DeleteFiles(files, names).missing == [] <==>
              (forall i :: 0 <= i < |names| ==> JsonPath(names[i]) in files) && Distinct(JsonPaths(names))
  {
    var pairs := FilePairs(names);
    forall i, j | 0 <= i < |pairs| && 0 <= j < |pairs|
      ensures pairs[i].json != pairs[j].script
    {
      JsonIsNotScript(names[i], names[j]);
    }
    if DeleteFiles(files, names).missing == [] {
      UnlinkAllSucceedsOnlyWhen(files, pairs);
    }
    if (forall i :: 0 <= i < |names| ==> JsonPath(names[i]) in files) && Distinct(JsonPaths(names)) {
      UnlinkAllSucceedsWhen(files, pairs);
    }
  }

  /** The outcome of the delete command: the configuration, the files, the models deleted, the failure. */
  datatype DeleteRun = DeleteRun(registry: Registry, files: set<string>, deleted: seq<string>, failure: Option<Failure>)

  /**
    deleteHandler (lb-update-delete.js:41-66) on one line of input: without
    confirmation nothing changes; otherwise the doomed models are dropped from
    the configuration, which is written, and their files are unlinked, the
    first missing definition file being reported as the failure. A model that
    no table yields and whose configuration gives no datasource ends the scan:
    the files of the models doomed before it are already unlinked, and the
    configuration is not written.
   */
  function DeleteHandler(input: string, discovered: Option<seq<TableName>>, app: seq<AppModel>, datasource: string,
                         files: set<string>, registry: Registry): (r: DeleteRun)
    ensures !Confirmed(input) ==> r == DeleteRun(registry, files, [], None)
    ensures Confirmed(input) && discovered.None? ==>
              r == DeleteRun(registry, files, [], Some(DatabaseUnavailable(datasource)))
    ensures Confirmed(input) && discovered.Some? && AllChecked(app, TableModelNames(discovered.value)) ==>
              r.deleted == Doomed(app, TableModelNames(discovered.value), datasource)
              && r.registry.Keys == registry.Keys - (set x | x in r.deleted)
              && (r.failure.Some? ==> r.failure.value.FileNotDeleted?)
    ensures Confirmed(input) && discovered.Some? && !AllChecked(app, TableModelNames(discovered.value)) ==>
              exists k :: 0 <= k < |app| && app[k].name !in TableModelNames(discovered.value) && app[k].dataSource.None?
                && AllChecked(app[..k], TableModelNames(discovered.value))
                && r.deleted == Doomed(app[..k], TableModelNames(discovered.value), datasource)
                && r.registry == registry
                && r.failure == Some(DatasourceUnset(app[k].name))
    ensures forall x :: x in r.registry ==> x in registry && r.registry[x] == registry[x]
    ensures r.files == files - AllPaths(r.deleted)
  {
    if !Confirmed(input) then DeleteRun(registry, files, [], None)
    else if discovered.None? then DeleteRun(registry, files, [], Some(DatabaseUnavailable(datasource)))
    else
      var fromDatabase := TableModelNames(discovered.value);
      var k := FirstUnchecked(app, fromDatabase);
      FirstUncheckedIff(app, fromDatabase);
      FirstUncheckedIff(app[..k], fromDatabase);
      assert app[..|app|] == app;
      var doomed := Doomed(app[..k], fromDatabase, datasource);
      var unlinked := DeleteFiles(files, doomed);
      if k < |app| then DeleteRun(registry, unlinked.remaining, doomed, Some(DatasourceUnset(app[k].name)))
      else
        DeleteRun(registry - (set x | x in doomed), unlinked.remaining, doomed,
                  if unlinked.missing == [] then None else Some(FileNotDeleted(unlinked.missing[0])))
  }

  /**
    After a confirmed deletion the configuration keeps exactly the entries of
    models that are not loaded on the datasource or that some table still
    yields, unless a model without a datasource stopped the scan, in which case
    it keeps every entry.
   */
  lemma DeleteKeeps(input: string, tables: seq<TableName>, app: seq<AppModel>, datasource: string,
                    files: set<string>, registry: Registry, x: string)
    requires Confirmed(input) && x in registry
    ensures x in DeleteHandler(input, Some(tables), app, datasource, files, registry).registry <==>
              || !AllChecked(app, TableModelNames(tables))
              || x in TableModelNames(tables)
              || forall a :: a in app && a.name == x ==> a.dataSource != Some(datasource)
  {
  }

  /**
    A confirmed deletion fails exactly when a model without a datasource stops
    the scan, or some doomed model's definition file is missing or shared with
    another doomed model.
   */
  lemma DeleteFails(input: string, tables: seq<TableName>, app: seq<AppModel>, datasource: string,
                    files: set<string>, registry: Registry)
    requires Confirmed(input)
    ensures var doomed := Doomed(app, TableModelNames(tables), datasource);
            DeleteHandler(input, Some(tables), app, datasource, files, registry).failure.None? <==>
              && AllChecked(app, TableModelNames(tables))
              && (forall i :: 0 <= i < |doomed| ==> JsonPath(doomed[i]) in files)
              && Distinct(JsonPaths(doomed))
  {
    DeleteFilesSucceeds(files, Doomed(app, TableModelNames(tables), datasource));
  }
}

=== FILE: files.dfy ===
/**
  Where a model lives on disk. A model's definition is the JSON file
  `common/models/<hyphen name>.json`, and its optional script the `.js` file
  beside it; reading, writing and deleting all derive the path from the model
  name the same way.
 */
module ModelFiles {
  import opened Results
  import opened NameTransform

  const ModelDirectory: string := "common/models/"
  const JsonExtension: string := ".json"
  const ScriptExtension: string := ".js"

  /** The definition file of a model (tools.js:9-10, tools.js:55, lb-update-delete.js:17-18). */
  function JsonPath(name: string): string
  {
    ModelDirectory + PascalToHyphen(name) + JsonExtension
  }

  /** The script file of a model (lb-update-delete.js:17, 21). */
  function ScriptPath(name: string): string
  {
    ModelDirectory + PascalToHyphen(name) + ScriptExtension
  }

  /** The hyphen name inside a definition path, or None for any other path. */
  function JsonStem(path: string): (r: Option<string>)
    ensures r.Some? ==> path == ModelDirectory + r.value + JsonExtension
  {
    if |path| >= |ModelDirectory| + |JsonExtension|
       && path[..|ModelDirectory|] == ModelDirectory
       && path[|path| - |JsonExtension|..] == JsonExtension
    then
      var stem := path[|ModelDirectory|..|path| - |JsonExtension|];
      assert path == path[..|ModelDirectory|] + stem + path[|path| - |JsonExtension|..];
      Some(stem)
    else None
  }

  /** The stem of a model's definition path is its hyphen name. */
  lemma JsonStemOfPath(name: string)
    ensures JsonStem(JsonPath(name)) == Some(PascalToHyphen(name))
  {
    var p := JsonPath(name);
    var h := PascalToHyphen(name);
    assert p[..|ModelDirectory|] == ModelDirectory;
    assert p[|p| - |JsonExtension|..] == JsonExtension;
    assert p[|ModelDirectory|..|p| - |JsonExtension|] == h;
  }

  /** Two models share a definition file exactly when their hyphen names agree. */
  lemma SameJsonPath(a: string, b: string)
    ensures JsonPath(a) == JsonPath(b) <==> PascalToHyphen(a) == PascalToHyphen(b)
  {
    if JsonPath(a) == JsonPath(b) {
      JsonStemOfPath(a);
      JsonStemOfPath(b);
    }
  }

  /** A definition file is never a script file, whichever models they belong to. */
  lemma JsonIsNotScript(a: string, b: string)
    ensures JsonPath(a) != ScriptPath(b)
  {
    var j := JsonPath(a);
    var s := ScriptPath(b);
    assert j[|j| - 1] == 'n';
    assert s[|s| - 1] == 's';
  }

  /** Model names that differ only in capitalisation runs share one file. */
  lemma AcronymSharesFile()
    ensures JsonPath("AB") == JsonPath("Ab")
  {
  }
}

=== FILE: models.dfy ===
/**
  The data the commands work on: model definitions with their property
  settings, the columns a database schema reports, and the rename of column
  names to their underscore form that both the add and the update command
  perform on a discovered schema before using it.
 */
module Models {
  import opened Results
  import opened NameTransform

  /** A JSON setting value; values are compared structurally. */
  datatype Value = Str(s: string) | Num(n: int) | Bool(b: bool) | Null

  /** The settings of one property, such as `type` or `length`. */
  type Settings = map<string, Value>

  /** The properties of a model, by property name. */
  type Properties = map<string, Settings>

  /** A table name given explicitly in a model definition (`{"table": …}`). */
  datatype TableSetting = TableSetting(table: string)

  /** The `options` object of a model definition. */
  datatype ModelOptions = ModelOptions(mysql: Option<TableSetting>, other: map<string, Value>)

  /**
    A model definition as read from its JSON file: the fields the commands
    look at, and everything else in `other`.
   */
  datatype ModelDef = ModelDef(
    name: string,
    mysql: Option<TableSetting>,
    options: Option<ModelOptions>,
    properties: Properties,
    other: map<string, Value>)

  /** A table name as discovery reports it; database tables are never unnamed. */
  type TableName = s: string | |s| > 0 witness "t"

  /** One column of a discovered table schema. */
  datatype Column = Column(name: string, settings: Settings)

  /**
    A model the application has loaded, with the name of the datasource its
    configuration attaches it to; `None` when the configuration gives a null
    datasource.
   */
  datatype AppModel = AppModel(name: string, dataSource: Option<string>)

  /** An entry of `server/model-config.json`. */
  datatype RegistryEntry = RegistryEntry(dataSource: string, public: bool)

  /** `server/model-config.json`: model name to entry. */
  type Registry = map<string, RegistryEntry>

  /** The settings both commands treat as worth keeping (lb-update-update.js:7, lb-update-add.js:9). */
  const DefaultSettings: set<string> := {"type", "required", "length", "id"}

  /** Why a command stops. */
  datatype Failure =
    | InvalidDatasource(datasource: string)
    | NoModelNames
    | ModelFileMissing(path: string)
    | OptionsMissing(model: string)
    | TableNotFound(table: string)
    | DatabaseUnavailable(datasource: string)
    | FileNotDeleted(path: string)
    | DatasourceUnset(model: string)

  /** A schema's column names are the keys of a JSON object, hence distinct. */
  predicate UniqueNames(cols: seq<Column>) {
    forall i, j :: 0 <= i < j < |cols| ==> cols[i].name != cols[j].name
  }

  /** No two columns collapse onto the same underscore name. */
  predicate DistinctNormalized(cols: seq<Column>) {
    forall i, j :: 0 <= i < j < |cols| ==> CamelToUnderscore(cols[i].name) != CamelToUnderscore(cols[j].name)
  }

  /** The column names in schema order (`Object.keys(schema.properties)`). */
  function Names(cols: seq<Column>): (r: seq<string>)
    ensures |r| == |cols|
    ensures forall i :: 0 <= i < |cols| ==> r[i] == cols[i].name
  {
    seq(|cols|, i requires 0 <= i < |cols| => cols[i].name)
  }

  /**
    A normalization of names that leaves its own results alone. The folds
    below are stated for any such normalization; the commands use
    CamelToUnderscore, and idempotence is the only fact about it they need.
   */
  ghost predicate Idempotent(norm: string -> string) {
    forall k :: norm(norm(k)) == norm(k)
  }

  lemma CamelToUnderscoreIsIdempotent()
    ensures Idempotent(CamelToUnderscore)
  {
    forall k ensures CamelToUnderscore(CamelToUnderscore(k)) == CamelToUnderscore(k) {
      CamelToUnderscoreIdempotent(k);
    }
  }

  /** The normalized names of a list of keys. */
  function Normalized(keys: seq<string>, norm: string -> string): set<string>
  {
    set k | k in keys :: norm(k)
  }

  /** The property names a schema yields once its column names are normalized. */
  function NormalizedNames(cols: seq<Column>): set<string>
  {
    Normalized(Names(cols), CamelToUnderscore)
  }

  /** `schema.properties` as a JSON object: column name to settings. */
  function ColumnMap(cols: seq<Column>): map<string, Settings>
  {
    if cols == [] then map[]
    else ColumnMap(cols[1..])[cols[0].name := cols[0].settings]
  }

  /** The set of column names. */
  function NameSet(cols: seq<Column>): set<string>
  {
    set c | c in cols :: c.name
  }

  /** The object holds exactly the column names as keys. */
  lemma {:induction false} ColumnMapKeys(cols: seq<Column>)
    ensures ColumnMap(cols).Keys == NameSet(cols)
  {
    if cols != [] {
      ColumnMapKeys(cols[1..]);
      assert NameSet(cols) == {cols[0].name} + NameSet(cols[1..]) by {
        assert forall c :: c in cols <==> c == cols[0] || c in cols[1..];
      }
    }
  }

  /** Each column's settings sit under its name. */
  lemma {:induction false} ColumnMapValues(cols: seq<Column>)
    requires UniqueNames(cols)
    ensures forall i :: 0 <= i < |cols| ==> cols[i].name in ColumnMap(cols) && ColumnMap(cols)[cols[i].name] == cols[i].settings
  {
    if cols != [] {
      var rest := cols[1..];
      assert UniqueNames(rest) by {
        forall i, j | 0 <= i < j < |rest| ensures rest[i].name != rest[j].name {
          assert cols[i + 1].name != cols[j + 1].name;
        }
      }
      ColumnMapValues(rest);
      forall i | 0 < i < |cols|
        ensures ColumnMap(cols)[cols[i].name] == cols[i].settings
      {
        assert cols[i].name != cols[0].name;
        assert cols[i] == rest[i - 1];
      }
    }
  }

  /** The column names of a schema are exactly the keys of its object. */
  lemma NamesAreKeys(cols: seq<Column>)
    requires UniqueNames(cols)
    ensures Pending(Names(cols), ColumnMap(cols))
    ensures (set k | k in Names(cols)) == ColumnMap(cols).Keys
  {
    ColumnMapKeys(cols);
    ColumnMapValues(cols);
    var ns := Names(cols);
    assert forall k :: k in ns <==> k in NameSet(cols) by {
      forall k ensures k in ns <==> k in NameSet(cols) {
        if k in ns {
          var i :| 0 <= i < |ns| && ns[i] == k;
          assert cols[i] in cols;
        }
        if k in NameSet(cols) {
          var c :| c in cols && c.name == k;
          var i :| 0 <= i < |cols| && cols[i] == c;
          assert ns[i] == k;
        }
      }
    }
  }

  /** Keys still to visit: present in the schema object and pairwise distinct. */
  predicate Pending(keys: seq<string>, schema: map<string, Settings>) {
    && (forall i :: 0 <= i < |keys| ==> keys[i] in schema)
    && (forall i, j :: 0 <= i < j < |keys| ==> keys[i] != keys[j])
  }

  /**
    The rename of one column (lb-update-update.js:32-36, lb-update-add.js:34-38): a name that is
    not in normalized form moves its settings to the normalized name,
    replacing whatever was there, and disappears.
   */
  function Rename(schema: map<string, Settings>, k: string, norm: string -> string): map<string, Settings>
    requires k in schema
  {
    var n := norm(k);
    if n != k then schema[n := schema[k]] - {k} else schema
  }

  /** A rename keeps every key still to visit in place. */
  lemma PendingAfterRename(keys: seq<string>, schema: map<string, Settings>, norm: string -> string)
    requires |keys| > 0 && Pending(keys, schema)
    ensures Pending(keys[1..], Rename(schema, keys[0], norm))
  {
    var rest := keys[1..];
    forall i | 0 <= i < |rest|
      ensures rest[i] in Rename(schema, keys[0], norm)
    {
      assert rest[i] == keys[i + 1] && keys[0] != keys[i + 1];
    }
    forall i, j | 0 <= i < j < |rest|
      ensures rest[i] != rest[j]
    {
      assert rest[i] == keys[i + 1] && rest[j] == keys[j + 1];
    }
  }

  /** The rename over the key snapshot, in key order. */
  function RenameAll(keys: seq<string>, schema: map<string, Settings>, norm: string -> string): map<string, Settings>
    requires Pending(keys, schema)
    decreases |keys|
  {
    if keys == [] then schema
    else
      PendingAfterRename(keys, schema, norm);
      RenameAll(keys[1..], Rename(schema, keys[0], norm), norm)
  }

  lemma NormalizedCons(keys: seq<string>, norm: string -> string)
    requires |keys| > 0
    ensures Normalized(keys, norm) == {norm(keys[0])} + Normalized(keys[1..], norm)
    ensures (set k | k in keys) == {keys[0]} + set k | k in keys[1..]
  {
  }

  /**
    After the renames every visited key is replaced by its normalized name: a
    key that was already normalized stays, the others are gone.
   */
  lemma {:induction false} RenameAllKeys(keys: seq<string>, schema: map<string, Settings>, norm: string -> string)
    requires Pending(keys, schema) && Idempotent(norm)
    ensures RenameAll(keys, schema, norm).Keys == (schema.Keys - set k | k in keys) + Normalized(keys, norm)
    decreases |keys|
  {
    if keys != [] {
      var k := keys[0];
      var n := norm(k);
      PendingAfterRename(keys, schema, norm);
      RenameAllKeys(keys[1..], Rename(schema, k, norm), norm);
      NormalizedCons(keys, norm);
      if n in keys[1..] {
        assert norm(n) == n;
      }
    }
  }

  /**
    Where the settings under x after the renames came from: x is a key that
    was never visited and kept its own settings, or some visited key is
    normalized onto x and x holds that key's settings.
   */
  predicate ComesFrom(keys: seq<string>, schema: map<string, Settings>, norm: string -> string, x: string, v: Settings)
  {
    || (x in schema && x !in keys && v == schema[x])
    || exists i :: 0 <= i < |keys| && keys[i] in schema && norm(keys[i]) == x && v == schema[keys[i]]
  }

  /** One rename step keeps the origin of every value, collisions included. */
  lemma ComesFromStep(keys: seq<string>, schema: map<string, Settings>, norm: string -> string, x: string, v: Settings)
    requires |keys| > 0 && Pending(keys, schema) && Idempotent(norm)
    requires ComesFrom(keys[1..], Rename(schema, keys[0], norm), norm, x, v)
    ensures ComesFrom(keys, schema, norm, x, v)
  {
    var k := keys[0];
    var n := norm(k);
    var rest := keys[1..];
    var s1 := Rename(schema, k, norm);
    if x in s1 && x !in rest && v == s1[x] {
      if n != k && x == n {
        assert norm(keys[0]) == x && v == schema[keys[0]];
      } else if x == k {
        assert norm(keys[0]) == x && v == schema[keys[0]];
      } else {
        assert x !in keys;
      }
    } else {
      var i :| 0 <= i < |rest| && rest[i] in s1 && norm(rest[i]) == x && v == s1[rest[i]];
      assert rest[i] == keys[i + 1] && rest[i] != k;
      if n != k && rest[i] == n {
        assert norm(n) == n;
        assert norm(keys[0]) == x && v == schema[keys[0]];
      } else {
        assert keys[i + 1] in schema && norm(keys[i + 1]) == x && v == schema[keys[i + 1]];
      }
    }
  }

  /**
    Every name after the renames holds the settings of a key it was not
    visited under, or of a visited key normalized onto it.
   */
  lemma {:induction false} RenameAllOrigin(keys: seq<string>, schema: map<string, Settings>, norm: string -> string)
    requires Pending(keys, schema) && Idempotent(norm)
    ensures forall x :: x in RenameAll(keys, schema, norm) ==> ComesFrom(keys, schema, norm, x, RenameAll(keys, schema, norm)[x])
    decreases |keys|
  {
    if keys != [] {
      var s1 := Rename(schema, keys[0], norm);
      PendingAfterRename(keys, schema, norm);
      RenameAllOrigin(keys[1..], s1, norm);
      var r := RenameAll(keys, schema, norm);
      assert r == RenameAll(keys[1..], s1, norm);
      forall x | x in r
        ensures ComesFrom(keys, schema, norm, x, r[x])
      {
        ComesFromStep(keys, schema, norm, x, r[x]);
      }
    }
  }

  /** A discovered schema after the column renames, with keys in schema order. */
  function Renamed(cols: seq<Column>): map<string, Settings>
    requires UniqueNames(cols)
  {
    NamesAreKeys(cols);
    RenameAll(Names(cols), ColumnMap(cols), CamelToUnderscore)
  }

  /**
    After the renames every name holds the settings of some column that
    normalizes onto it: with no unvisited keys left, only the second case of
    `ComesFrom` remains.
   */
  lemma RenamedOrigin(cols: seq<Column>)
    requires UniqueNames(cols)
    ensures forall n :: n in Renamed(cols) ==>
              exists i :: 0 <= i < |cols| && CamelToUnderscore(cols[i].name) == n && Renamed(cols)[n] == cols[i].settings
  {
    NamesAreKeys(cols);
    ColumnMapValues(cols);
    CamelToUnderscoreIsIdempotent();
    var keys := Names(cols);
    RenameAllOrigin(keys, ColumnMap(cols), CamelToUnderscore);
    forall n | n in Renamed(cols)
      ensures exists i :: 0 <= i < |cols| && CamelToUnderscore(cols[i].name) == n && Renamed(cols)[n] == cols[i].settings
    {
      assert ComesFrom(keys, ColumnMap(cols), CamelToUnderscore, n, Renamed(cols)[n]);
      var i :| 0 <= i < |keys| && keys[i] in ColumnMap(cols) && CamelToUnderscore(keys[i]) == n && Renamed(cols)[n] == ColumnMap(cols)[keys[i]];
      assert keys[i] == cols[i].name;
    }
  }

  /** A key that is neither visited nor the normalized name of a visited key is left alone. */
  lemma {:induction false} RenameAllFrame(keys: seq<string>, schema: map<string, Settings>, norm: string -> string, x: string)
    requires Pending(keys, schema)
    requires x in schema && x !in keys && x !in Normalized(keys, norm)
    ensures x in RenameAll(keys, schema, norm) && RenameAll(keys, schema, norm)[x] == schema[x]
    decreases |keys|
  {
    if keys != [] {
      PendingAfterRename(keys, schema, norm);
      NormalizedCons(keys, norm);
      RenameAllFrame(keys[1..], Rename(schema, keys[0], norm), norm, x);
    }
  }

  /** No two keys collapse onto the same normalized name. */
  predicate DistinctAfterRename(keys: seq<string>, norm: string -> string) {
    forall i, j :: 0 <= i < j < |keys| ==> norm(keys[i]) != norm(keys[j])
  }

  lemma DistinctAfterRenameTail(keys: seq<string>, norm: string -> string)
    requires |keys| > 0 && DistinctAfterRename(keys, norm)
    ensures DistinctAfterRename(keys[1..], norm)
  {
    var rest := keys[1..];
    forall i, j | 0 <= i < j < |rest|
      ensures norm(rest[i]) != norm(rest[j])
    {
      assert rest[i] == keys[i + 1] && rest[j] == keys[j + 1];
    }
  }

  /**
    The first key's normalized name is neither a later key nor the normalized
    name of one, when no two keys collapse.
   */
  lemma FirstNameIsFresh(keys: seq<string>, norm: string -> string)
    requires |keys| > 0 && DistinctAfterRename(keys, norm) && Idempotent(norm)
    ensures norm(keys[0]) !in keys[1..] && norm(keys[0]) !in Normalized(keys[1..], norm)
    ensures keys[0] !in keys[1..]
  {
    var rest := keys[1..];
    var n := norm(keys[0]);
    forall j | 0 <= j < |rest|
      ensures rest[j] != n && norm(rest[j]) != n && rest[j] != keys[0]
    {
      assert rest[j] == keys[j + 1];
      assert norm(n) == n;
    }
  }

  /**
    Without collisions every normalized name ends up holding exactly the
    settings its column had.
   */
  lemma {:induction false} RenameAllValues(keys: seq<string>, schema: map<string, Settings>, norm: string -> string)
    requires Pending(keys, schema) && DistinctAfterRename(keys, norm) && Idempotent(norm)
    ensures forall i :: 0 <= i < |keys| ==>
              norm(keys[i]) in RenameAll(keys, schema, norm)
              && RenameAll(keys, schema, norm)[norm(keys[i])] == schema[keys[i]]
    decreases |keys|
  {
    if keys != [] {
      var k := keys[0];
      var rest := keys[1..];
      var s1 := Rename(schema, k, norm);
      PendingAfterRename(keys, schema, norm);
      DistinctAfterRenameTail(keys, norm);
      RenameAllValues(rest, s1, norm);
      FirstNameIsFresh(keys, norm);
      forall i | 0 < i < |keys|
        ensures RenameAll(keys, schema, norm)[norm(keys[i])] == schema[keys[i]]
      {
        assert keys[i] == rest[i - 1];
        assert norm(norm(k)) == norm(k);
      }
      RenameAllFrame(rest, s1, norm, norm(k));
    }
  }

  /** The argument check common to every command (lb-update-update.js:90-92, lb-update-add.js:86-88, lb-update-delete.js:73-75). */
  function CheckDatasource(datasource: string, datasources: set<string>): (r: Option<Failure>)
    ensures r.None? <==> datasource in datasources
    ensures r.Some? ==> r.value == InvalidDatasource(datasource)
  {
    if datasource !in datasources then Some(InvalidDatasource(datasource)) else None
  }

  /**
    The argument checks of the add and update commands (lb-update-update.js:90-96,
    lb-update-add.js:86-92): a known datasource, and model names unless `--all` is given.
   */
  function CheckArgs(datasource: string, datasources: set<string>, modelNames: seq<string>, all: bool): (r: Option<Failure>)
    ensures r.None? <==> datasource in datasources && (|modelNames| > 0 || all)
    ensures datasource !in datasources ==> r == Some(InvalidDatasource(datasource))
    ensures datasource in datasources && |modelNames| == 0 && !all ==> r == Some(NoModelNames)
  {
    if datasource !in datasources then Some(InvalidDatasource(datasource))
    else if |modelNames| == 0 && !all then Some(NoModelNames)
    else None
  }
}

=== FILE: names.dfy ===
/**
  The naming conventions the tool translates between: PascalCase model names,
  underscore_separated table and column names, hyphen-separated file names.

  Every transform is a JavaScript regular-expression replace followed by a case
  change. Both regular expressions only match ASCII letters, and the case
  changes are modelled on ASCII letters only; every other character passes
  through unchanged.
 */
module NameTransform {

  predicate IsLower(c: char) { 'a' <= c <= 'z' }

  predicate IsUpper(c: char) { 'A' <= c <= 'Z' }

  function ToLower(c: char): (r: char)
    ensures !IsUpper(r)
    ensures IsUpper(c) ==> IsLower(r) && ToUpper(r) == c
    ensures !IsUpper(c) ==> r == c
  {
    if IsUpper(c) then (c as int + 32) as char else c
  }

  function ToUpper(c: char): (r: char)
    ensures !IsLower(r)
    ensures IsLower(c) ==> IsUpper(r) && (c as int - 32) as char == r
    ensures !IsLower(c) ==> r == c
  {
    if IsLower(c) then (c as int - 32) as char else c
  }

  lemma LowerUpper(c: char)
    requires IsLower(c)
    ensures ToLower(ToUpper(c)) == c
  {
  }

  /** `String.prototype.toLowerCase`, on ASCII letters. */
  function Lower(s: string): (r: string)
    ensures |r| == |s|
    ensures forall i :: 0 <= i < |s| ==> r[i] == ToLower(s[i])
  {
    seq(|s|, i requires 0 <= i < |s| => ToLower(s[i]))
  }

  lemma LowerAppend(a: string, b: string)
    ensures Lower(a + b) == Lower(a) + Lower(b)
  {
  }

  predicate NoUpper(s: string) {
    forall i :: 0 <= i < |s| ==> !IsUpper(s[i])
  }

  /** A lower-case letter directly followed by an upper-case one at index i. */
  predicate BoundaryAt(s: string, i: int)
    requires 0 <= i && i + 1 < |s|
  {
    IsLower(s[i]) && IsUpper(s[i + 1])
  }

  predicate NoBoundary(s: string) {
    forall i :: 0 <= i && i + 1 < |s| ==> !BoundaryAt(s, i)
  }

  /** The number of lower-case to upper-case boundaries in s. */
  function Boundaries(s: string): nat
  {
    if |s| < 2 then 0
    else (if BoundaryAt(s, 0) then 1 else 0) + Boundaries(s[1..])
  }

  /**
    `s.replace(/([a-z])([A-Z])/g, '$1' + sep + '$2')` (tools.js:35, 39, 51).
    A global replace scans left to right and resumes after each match, so
    matches never overlap: a matched pair is emitted with the separator between
    its two letters and the scan continues two characters further on.
   */
  function SplitCamel(s: string, sep: char): string
    decreases |s|
  {
    if |s| < 2 then s
    else if IsLower(s[0]) && IsUpper(s[1]) then [s[0], sep, s[1]] + SplitCamel(s[2..], sep)
    else [s[0]] + SplitCamel(s[1..], sep)
  }

  /**
    Splitting adds one separator per boundary, keeps the first character and
    leaves no lower-case letter directly before an upper-case one.
   */
  lemma {:induction false} SplitCamelShape(s: string, sep: char)
    requires !IsLower(sep) && !IsUpper(sep)
    ensures |SplitCamel(s, sep)| == |s| + Boundaries(s)
    ensures NoBoundary(SplitCamel(s, sep))
    ensures |s| > 0 ==> |SplitCamel(s, sep)| > 0 && SplitCamel(s, sep)[0] == s[0]
    decreases |s|
  {
    if |s| < 2 {
    } else if IsLower(s[0]) && IsUpper(s[1]) {
      assert s[1..][1..] == s[2..];
      if |s| > 2 {
        assert !BoundaryAt(s[1..], 0);
      }
      assert Boundaries(s) == 1 + Boundaries(s[2..]);
      var rest := SplitCamel(s[2..], sep);
      SplitCamelShape(s[2..], sep);
      NoBoundaryCons(s[1], rest);
      NoBoundaryCons(sep, [s[1]] + rest);
      NoBoundaryCons(s[0], [sep] + ([s[1]] + rest));
      assert SplitCamel(s, sep) == [s[0]] + ([sep] + ([s[1]] + rest));
    } else {
      var rest := SplitCamel(s[1..], sep);
      SplitCamelShape(s[1..], sep);
      NoBoundaryCons(s[0], rest);
    }
  }

  lemma NoBoundaryCons(c: char, t: string)
    requires NoBoundary(t)
    requires |t| > 0 ==> !(IsLower(c) && IsUpper(t[0]))
    ensures NoBoundary([c] + t)
  {
    var r := [c] + t;
    forall i | 0 <= i && i + 1 < |r|
      ensures !BoundaryAt(r, i)
    {
      if i > 0 {
        assert r[i] == t[i - 1] && r[i + 1] == t[i];
        assert !BoundaryAt(t, i - 1);
      }
    }
  }

  /**
    Reference definition of the same insertion, one character at a time: every
    character is copied, and a separator follows it exactly when it starts a
    lower-case to upper-case boundary.
   */
  function SeparateBoundaries(s: string, sep: char): string
    decreases |s|
  {
    if |s| < 2 then s
    else [s[0]] + (if BoundaryAt(s, 0) then [sep] else []) + SeparateBoundaries(s[1..], sep)
  }

  /** Non-overlapping matching loses no boundary: both definitions agree. */
  lemma {:induction false} SplitCamelSeparatesEveryBoundary(s: string, sep: char)
    requires !IsLower(sep) && !IsUpper(sep)
    ensures SplitCamel(s, sep) == SeparateBoundaries(s, sep)
    decreases |s|
  {
    if |s| < 2 {
    } else if BoundaryAt(s, 0) {
      SplitCamelSeparatesEveryBoundary(s[2..], sep);
      var t := s[1..];
      assert t[1..] == s[2..];
      if |t| >= 2 {
        assert !BoundaryAt(t, 0);
        assert SeparateBoundaries(t, sep) == [t[0]] + SeparateBoundaries(s[2..], sep);
      }
    } else {
      SplitCamelSeparatesEveryBoundary(s[1..], sep);
    }
  }

  /** The regex scan on a string whose first two characters do not match. */
  lemma SplitCamelKeep(c: char, t: string, sep: char)
    requires |t| == 0 || !(IsLower(c) && IsUpper(t[0]))
    ensures SplitCamel([c] + t, sep) == [c] + SplitCamel(t, sep)
  {
    var s := [c] + t;
    if |t| > 0 {
      assert s[1..] == t;
    }
  }

  /** The regex scan on a string that starts with a match. */
  lemma SplitCamelPair(a: char, b: char, t: string, sep: char)
    requires IsLower(a) && IsUpper(b)
    ensures SplitCamel([a, b] + t, sep) == [a, sep, b] + SplitCamel(t, sep)
  {
    var s := [a, b] + t;
    assert s[2..] == t;
  }

  /** The reference definition, unfolded on a string with a known first character. */
  lemma SeparateCons(c: char, t: string, sep: char)
    ensures SeparateBoundaries([c] + t, sep)
            == [c] + (if |t| > 0 && IsLower(c) && IsUpper(t[0]) then [sep] else []) + SeparateBoundaries(t, sep)
  {
    var s := [c] + t;
    if |t| > 0 {
      assert s[1..] == t;
    }
  }

  /** The shared body of the three lower-casing transforms. */
  function Decamelize(s: string, sep: char): string
  {
    Lower(SplitCamel(s, sep))
  }

  lemma DecamelizeShape(s: string, sep: char)
    requires !IsLower(sep) && !IsUpper(sep)
    ensures |Decamelize(s, sep)| == |s| + Boundaries(s)
    ensures NoUpper(Decamelize(s, sep))
  {
    SplitCamelShape(s, sep);
  }

  /** File names from model names (tools.js:34-36). */
  function PascalToHyphen(s: string): string
  {
    Decamelize(s, '-')
  }

  /** Default table names from model names (tools.js:38-40). */
  function PascalToUnderscore(s: string): string
  {
    Decamelize(s, '_')
  }

  /** Property names from column names (tools.js:50-52). */
  function CamelToUnderscore(s: string): string
  {
    Decamelize(s, '_')
  }

  /**
    A normalized column name holds no upper-case letter, and is one character
    longer than the column name per lower-case to upper-case boundary.
   */
  lemma CamelToUnderscoreShape(s: string)
    ensures |CamelToUnderscore(s)| == |s| + Boundaries(s)
    ensures NoUpper(CamelToUnderscore(s))
  {
    DecamelizeShape(s, '_');
  }

  /** File names likewise hold no upper-case letter. */
  lemma PascalToHyphenShape(s: string)
    ensures |PascalToHyphen(s)| == |s| + Boundaries(s)
    ensures NoUpper(PascalToHyphen(s))
  {
    DecamelizeShape(s, '-');
  }

  /**
    The two underscore transforms compute the same function, and the hyphen
    transform differs from them only where a separator was inserted.
   */
  lemma {:induction false} HyphenAndUnderscoreDifferOnlyInSeparator(s: string)
    ensures PascalToUnderscore(s) == CamelToUnderscore(s)
    ensures |PascalToHyphen(s)| == |PascalToUnderscore(s)|
    ensures forall i :: 0 <= i < |PascalToHyphen(s)| ==>
              PascalToHyphen(s)[i] == PascalToUnderscore(s)[i]
              || (PascalToHyphen(s)[i] == '-' && PascalToUnderscore(s)[i] == '_')
  {
    SplitCamelSameShape(s);
  }

  lemma {:induction false} SplitCamelSameShape(s: string)
    ensures |SplitCamel(s, '-')| == |SplitCamel(s, '_')|
    ensures forall i :: 0 <= i < |SplitCamel(s, '-')| ==>
              SplitCamel(s, '-')[i] == SplitCamel(s, '_')[i]
              || (SplitCamel(s, '-')[i] == '-' && SplitCamel(s, '_')[i] == '_')
    decreases |s|
  {
    if |s| < 2 {
    } else if IsLower(s[0]) && IsUpper(s[1]) {
      SplitCamelSameShape(s[2..]);
    } else {
      SplitCamelSameShape(s[1..]);
    }
  }

  /** A string without upper-case letters has no boundary for the regex to match. */
  lemma {:induction false} SplitCamelNoUpper(s: string, sep: char)
    requires !IsLower(sep) && !IsUpper(sep)
    requires NoUpper(s)
    ensures SplitCamel(s, sep) == s
    decreases |s|
  {
    if |s| >= 2 {
      assert !IsUpper(s[1]);
      assert NoUpper(s[1..]);
      SplitCamelNoUpper(s[1..], sep);
    }
  }

  /** Normalizing an already normalized name changes nothing (tools.js:50-52). */
  lemma CamelToUnderscoreIdempotent(s: string)
    ensures CamelToUnderscore(CamelToUnderscore(s)) == CamelToUnderscore(s)
  {
    var r := CamelToUnderscore(s);
    CamelToUnderscoreShape(s);
    SplitCamelNoUpper(r, '_');
    assert Lower(r) == r;
  }

  /** An underscore directly followed by a lower-case letter at index i. */
  predicate UnderscoreBeforeLower(s: string, i: int)
    requires 0 <= i && i + 1 < |s|
  {
    s[i] == '_' && IsLower(s[i + 1])
  }

  predicate NoUnderscoreBeforeLower(s: string) {
    forall i :: 0 <= i && i + 1 < |s| ==> !UnderscoreBeforeLower(s, i)
  }

  /**
    `s.replace(/_([a-z])/g, g => g[1].toUpperCase())` (tools.js:43-45): an
    underscore followed by a lower-case letter becomes that letter in upper
    case; the scan resumes after the match.
   */
  function JoinWords(s: string): string
    decreases |s|
  {
    if |s| < 2 then s
    else if s[0] == '_' && IsLower(s[1]) then [ToUpper(s[1])] + JoinWords(s[2..])
    else [s[0]] + JoinWords(s[1..])
  }

  /**
    Joining never lengthens the name, keeps the first character or turns it
    into a capital, and leaves no underscore directly before a lower-case letter.
   */
  lemma {:induction false} JoinWordsShape(s: string)
    ensures |JoinWords(s)| <= |s|
    ensures |s| > 0 ==> |JoinWords(s)| > 0 && (JoinWords(s)[0] == s[0] || IsUpper(JoinWords(s)[0]))
    ensures NoUnderscoreBeforeLower(JoinWords(s))
    decreases |s|
  {
    if |s| < 2 {
    } else if s[0] == '_' && IsLower(s[1]) {
      JoinWordsShape(s[2..]);
      NoUnderscoreCons(ToUpper(s[1]), JoinWords(s[2..]));
    } else {
      JoinWordsShape(s[1..]);
      NoUnderscoreCons(s[0], JoinWords(s[1..]));
    }
  }

  lemma NoUnderscoreCons(c: char, t: string)
    requires NoUnderscoreBeforeLower(t)
    requires |t| > 0 ==> !(c == '_' && IsLower(t[0]))
    ensures NoUnderscoreBeforeLower([c] + t)
  {
    var r := [c] + t;
    forall i | 0 <= i && i + 1 < |r|
      ensures !UnderscoreBeforeLower(r, i)
    {
      if i > 0 {
        assert r[i] == t[i - 1] && r[i + 1] == t[i];
        assert !UnderscoreBeforeLower(t, i - 1);
      }
    }
  }

  /** Model names from table names (tools.js:42-48); indexing `[0]` needs a non-empty name. */
  function UnderscoreToPascal(s: string): string
    requires |s| > 0
  {
    var j := JoinWords(s);
    JoinWordsShape(s);
    [ToUpper(j[0])] + j[1..]
  }

  /**
    A model name starts with a character that is not a lower-case letter, is
    never longer than the table name, and holds no underscore directly before
    a lower-case letter.
   */
  lemma UnderscoreToPascalShape(s: string)
    requires |s| > 0
    ensures 0 < |UnderscoreToPascal(s)| <= |s|
    ensures !IsLower(UnderscoreToPascal(s)[0])
    ensures s[0] != '_' ==> UnderscoreToPascal(s)[0] == ToUpper(s[0])
    ensures NoUnderscoreBeforeLower(UnderscoreToPascal(s))
  {
    var j := JoinWords(s);
    JoinWordsShape(s);
    if |s| >= 2 && s[0] == '_' && IsLower(s[1]) {
      assert j[0] != '_';
    } else {
      assert j[0] == s[0] || IsUpper(j[0]);
    }
    NoUnderscoreTail(j);
    NoUnderscoreCons(ToUpper(j[0]), j[1..]);
  }

  lemma NoUnderscoreTail(s: string)
    requires |s| > 0 && NoUnderscoreBeforeLower(s)
    ensures NoUnderscoreBeforeLower(s[1..])
  {
    var t := s[1..];
    forall i | 0 <= i && i + 1 < |t|
      ensures !UnderscoreBeforeLower(t, i)
    {
      assert !UnderscoreBeforeLower(s, i + 1);
    }
  }

  /**
    Lower-case words joined by single underscores, where every word except the
    last has at least two letters. A one-letter word followed by another word
    turns into two adjacent capitals, and the regex of tools.js:39 does not
    split those again.
   */
  predicate SnakeCase(t: string) {
    |t| > 0 && forall i :: 0 <= i < |t| ==> SnakeChar(t, i)
  }

  /** t[i] is a lower-case letter, or an underscore between two words as above. */
  predicate SnakeChar(t: string, i: int)
    requires 0 <= i < |t|
  {
    || IsLower(t[i])
    || (&& t[i] == '_'
        && 2 <= i < |t| - 1
        && IsLower(t[i - 2]) && IsLower(t[i - 1]) && IsLower(t[i + 1]))
  }

  lemma JoinWordsCons(c: char, t: string)
    requires c != '_'
    ensures JoinWords([c] + t) == [c] + JoinWords(t)
  {
    var s := [c] + t;
    if |t| > 0 {
      assert s[1..] == t;
    }
  }

  lemma JoinWordsMatch(c: char, t: string)
    requires IsLower(c)
    ensures JoinWords(['_', c] + t) == [ToUpper(c)] + JoinWords(t)
  {
    var s := ['_', c] + t;
    assert s[2..] == t;
  }

  /** One lower-case letter c after the letter p: no separator appears between them. */
  lemma RoundTripLetter(p: char, c: char, rest: string)
    requires IsLower(p) && IsLower(c)
    requires Lower(SeparateBoundaries([c] + JoinWords(rest), '_')) == [c] + rest
    ensures Lower(SeparateBoundaries([p] + JoinWords([c] + rest), '_')) == [p] + ([c] + rest)
  {
    JoinWordsCons(c, rest);
    SeparateCons(p, [c] + JoinWords(rest), '_');
    LowerAppend([p], SeparateBoundaries([c] + JoinWords(rest), '_'));
  }

  /** An underscore and the letter c after the letter p: the capital gets its separator back. */
  lemma RoundTripUnderscore(p: char, c: char, rest: string)
    requires IsLower(p) && IsLower(c)
    requires Lower(SeparateBoundaries(JoinWords(rest), '_')) == rest
    ensures Lower(SeparateBoundaries([p] + JoinWords(['_', c] + rest), '_')) == [p] + (['_', c] + rest)
  {
    var u := ToUpper(c);
    var x := JoinWords(rest);
    JoinWordsMatch(c, rest);
    SeparateAtCapital(p, u, x);
    LowerUpper(c);
    LowerThree(p, '_', u, SeparateBoundaries(x, '_'));
  }

  /** A separator goes between p and the capital u, and none after u. */
  lemma SeparateAtCapital(p: char, u: char, x: string)
    requires IsLower(p) && IsUpper(u)
    ensures SeparateBoundaries([p] + ([u] + x), '_') == [p, '_', u] + SeparateBoundaries(x, '_')
  {
    SeparateCons(u, x, '_');
    SeparateCons(p, [u] + x, '_');
  }

  lemma LowerThree(a: char, b: char, c: char, t: string)
    ensures Lower([a, b, c] + t) == [ToLower(a), ToLower(b), ToLower(c)] + Lower(t)
  {
  }

  lemma LowerCons(c: char, t: string)
    ensures Lower([c] + t) == [ToLower(c)] + Lower(t)
  {
  }

  /**
    The round trip from position k on: with the lower-case letter t[k-1]
    standing before the joined rest of t, splitting and lower-casing gives back
    the suffix of t that starts at k-1.
   */
  predicate RoundTripsFrom(t: string, k: nat)
    requires 1 <= k <= |t|
  {
    Lower(SeparateBoundaries([t[k - 1]] + JoinWords(t[k..]), '_')) == t[k - 1..]
  }

  lemma {:induction false} RoundTripFrom(t: string, k: nat)
    requires SnakeCase(t)
    requires 1 <= k <= |t| && IsLower(t[k - 1])
    ensures RoundTripsFrom(t, k)
    decreases |t| - k
  {
    if k == |t| {
      RoundTripFromEnd(t, k);
    } else if t[k] != '_' {
      assert SnakeChar(t, k);
      RoundTripFrom(t, k + 1);
      RoundTripFromLetter(t, k);
    } else {
      assert SnakeChar(t, k);
      if k + 2 < |t| {
        assert SnakeChar(t, k + 2);
        RoundTripFrom(t, k + 3);
      }
      RoundTripFromUnderscore(t, k);
    }
  }

  lemma RoundTripFromEnd(t: string, k: nat)
    requires 1 <= k == |t| && IsLower(t[k - 1])
    ensures RoundTripsFrom(t, k)
  {
    var c := t[k - 1];
    assert t[k..] == [];
    assert JoinWords([]) == [];
    assert [c] + [] == [c];
    assert SeparateBoundaries([c], '_') == [c];
    assert Lower([c]) == [c];
    assert t[k - 1..] == [c];
  }

  lemma RoundTripFromLetter(t: string, k: nat)
    requires 1 <= k < |t| && IsLower(t[k - 1]) && IsLower(t[k])
    requires RoundTripsFrom(t, k + 1)
    ensures RoundTripsFrom(t, k)
  {
    var rest := t[k + 1..];
    assert t[k..] == [t[k]] + rest;
    RoundTripLetter(t[k - 1], t[k], rest);
    assert t[k - 1..] == [t[k - 1]] + ([t[k]] + rest);
    assert Lower(SeparateBoundaries([t[k - 1]] + JoinWords([t[k]] + rest), '_')) == t[k - 1..];
  }

  lemma RoundTripFromUnderscore(t: string, k: nat)
    requires 1 <= k && k + 1 < |t| && IsLower(t[k - 1]) && t[k] == '_' && IsLower(t[k + 1])
    requires k + 2 < |t| ==> IsLower(t[k + 2]) && RoundTripsFrom(t, k + 3)
    ensures RoundTripsFrom(t, k)
  {
    var rest := t[k + 2..];
    if k + 2 < |t| {
      assert rest == [t[k + 2]] + t[k + 3..];
      JoinWordsCons(t[k + 2], t[k + 3..]);
    } else {
      assert rest == [];
    }
    assert t[k..] == ['_', t[k + 1]] + rest;
    RoundTripUnderscore(t[k - 1], t[k + 1], rest);
    assert t[k - 1..] == [t[k - 1]] + (['_', t[k + 1]] + rest);
  }

  /**
    A table name in snake case survives the trip to a model name and back
    (tools.js:38-48); the add command relies on it when it derives a model
    name from a table and the table name again from that model name.
   */
  lemma UnderscorePascalRoundTrip(t: string)
    requires SnakeCase(t)
    ensures PascalToUnderscore(UnderscoreToPascal(t)) == t
  {
    var c := t[0];
    assert SnakeChar(t, 0);
    assert t == [c] + t[1..];
    JoinWordsCons(c, t[1..]);
    var x := JoinWords(t[1..]);
    assert UnderscoreToPascal(t) == [ToUpper(c)] + x;
    PascalHead(c, x);
    if |t| == 1 {
      assert t[1..] == [];
    } else {
      assert SnakeChar(t, 1);
      RoundTripFrom(t, 2);
      assert t[1..] == [t[1]] + t[2..];
      JoinWordsCons(t[1], t[2..]);
      assert Lower(SeparateBoundaries(x, '_')) == t[1..];
    }
  }

  /** A capital first letter is lower-cased and never gets a separator after it. */
  lemma PascalHead(c: char, x: string)
    requires IsLower(c)
    ensures PascalToUnderscore([ToUpper(c)] + x) == [c] + Lower(SeparateBoundaries(x, '_'))
  {
    var p := [ToUpper(c)] + x;
    SplitCamelSeparatesEveryBoundary(p, '_');
    SeparateCons(ToUpper(c), x, '_');
    LowerAppend([ToUpper(c)], SeparateBoundaries(x, '_'));
    LowerUpper(c);
  }

  /**
    Each character is a letter, and a capital is followed by a lower-case
    letter or ends the name: no two capitals stand next to each other.
   */
  predicate CamelLetters(s: string) {
    forall i :: 0 <= i < |s| ==> CamelLetterAt(s, i)
  }

  predicate CamelLetterAt(s: string, i: int)
    requires 0 <= i < |s|
  {
    || IsLower(s[i])
    || (IsUpper(s[i]) && (i + 1 < |s| ==> IsLower(s[i + 1])))
  }

  /** A model name made of ASCII letters, starting with a capital, with no two adjacent capitals. */
  predicate PascalName(x: string) {
    |x| > 0 && IsUpper(x[0]) && CamelLetters(x)
  }

  lemma CamelLettersTail(s: string)
    requires |s| > 0 && CamelLetters(s)
    ensures CamelLetters(s[1..])
  {
    var t := s[1..];
    forall i | 0 <= i < |t|
      ensures CamelLetterAt(t, i)
    {
      assert CamelLetterAt(s, i + 1);
    }
  }

  /** The trip back on a tail that starts with a lower-case letter, or is empty. */
  predicate PascalTripsOn(s: string) {
    JoinWords(Lower(SeparateBoundaries(s, '_'))) == s
  }

  lemma {:induction false} PascalTripFrom(s: string)
    requires CamelLetters(s) && (|s| > 0 ==> IsLower(s[0]))
    ensures PascalTripsOn(s)
    decreases |s|
  {
    if |s| > 0 {
      var r := s[1..];
      assert s == [s[0]] + r;
      CamelLettersTail(s);
      if |r| == 0 {
        assert s == [s[0]];
      } else if IsLower(r[0]) {
        PascalTripFrom(r);
        PascalTripLetter(s[0], r);
      } else {
        assert CamelLetterAt(s, 1);
        assert r == [r[0]] + r[1..];
        CamelLettersTail(r);
        PascalTripFrom(r[1..]);
        PascalTripCapital(s[0], r[0], r[1..]);
      }
    }
  }

  lemma PascalTripLetter(c: char, r: string)
    requires IsLower(c) && |r| > 0 && IsLower(r[0]) && PascalTripsOn(r)
    ensures PascalTripsOn([c] + r)
  {
    SeparateCons(c, r, '_');
    assert SeparateBoundaries([c] + r, '_') == [c] + SeparateBoundaries(r, '_');
    LowerCons(c, SeparateBoundaries(r, '_'));
    JoinWordsCons(c, Lower(SeparateBoundaries(r, '_')));
  }

  lemma PascalTripCapital(c: char, u: char, t: string)
    requires IsLower(c) && IsUpper(u) && PascalTripsOn(t)
    ensures PascalTripsOn([c] + ([u] + t))
  {
    SeparateAtCapital(c, u, t);
    LowerThree(c, '_', u, SeparateBoundaries(t, '_'));
    var l := Lower(SeparateBoundaries(t, '_'));
    assert [c, '_', ToLower(u)] + l == [c] + (['_', ToLower(u)] + l);
    JoinWordsCons(c, ['_', ToLower(u)] + l);
    JoinWordsMatch(ToLower(u), l);
  }

  /**
    A model name of letters only, with no two adjacent capitals, survives the
    trip to a table name and back (tools.js:38-48).
   */
  lemma PascalUnderscoreRoundTrip(x: string)
    requires PascalName(x)
    ensures UnderscoreToPascal(PascalToUnderscore(x)) == x
  {
    var u := x[0];
    var t := x[1..];
    assert x == [u] + t;
    SplitCamelSeparatesEveryBoundary(x, '_');
    SeparateCons(u, t, '_');
    LowerCons(u, SeparateBoundaries(t, '_'));
    var l := Lower(SeparateBoundaries(t, '_'));
    assert PascalToUnderscore(x) == [ToLower(u)] + l;
    JoinWordsCons(ToLower(u), l);
    CamelLettersTail(x);
    if |t| > 0 {
      assert CamelLetterAt(x, 0);
    }
    PascalTripFrom(t);
    assert JoinWords(PascalToUnderscore(x)) == [ToLower(u)] + t;
  }

  /**
    A digit in the model name stops the regex of tools.js:35 at the capital
    after it, so "User1Name" comes back as "User1name".
   */
  lemma DigitBreaksPascalRoundTrip()
    ensures UnderscoreToPascal(PascalToUnderscore("User1" + "Name")) == "User1" + "name"
  {
    DigitBreaksRoundTripBack();
    var t := "user1" + "name";
    JoinWordsNoUnderscore(t);
    assert UnderscoreToPascal(t) == [ToUpper(t[0])] + t[1..];
    assert "User1" + "name" == ['U'] + t[1..];
  }

  /** A name with no boundary passes through the regex of tools.js:35 unchanged. */
  lemma {:induction false} SplitCamelNoBoundary(s: string, sep: char)
    requires NoBoundary(s)
    ensures SplitCamel(s, sep) == s
    decreases |s|
  {
    if |s| >= 2 {
      assert !BoundaryAt(s, 0);
      NoBoundaryTail(s);
      SplitCamelNoBoundary(s[1..], sep);
    }
  }

  lemma NoBoundaryTail(s: string)
    requires |s| > 0 && NoBoundary(s)
    ensures NoBoundary(s[1..])
  {
    var t := s[1..];
    forall i | 0 <= i && i + 1 < |t|
      ensures !BoundaryAt(t, i)
    {
      assert !BoundaryAt(s, i + 1);
    }
  }

  /**
    Splitting a word with no boundary of its own that ends in a lower-case
    letter, followed by a capital: the separator goes exactly between them.
   */
  lemma {:induction false} SplitCamelAfterWord(w: string, rest: string, sep: char)
    requires |w| > 0 && NoBoundary(w) && IsLower(w[|w| - 1])
    requires |rest| > 0 && IsUpper(rest[0])
    ensures SplitCamel(w + rest, sep) == w + [sep] + SplitCamel(rest, sep)
    decreases |w|
  {
    var s := w + rest;
    if |w| == 1 {
      assert s == [w[0], rest[0]] + rest[1..];
      SplitCamelPair(w[0], rest[0], rest[1..], sep);
      assert rest == [rest[0]] + rest[1..];
      SplitCamelKeep(rest[0], rest[1..], sep);
      assert w + [sep] + SplitCamel(rest, sep) == [w[0], sep, rest[0]] + SplitCamel(rest[1..], sep);
    } else {
      assert !BoundaryAt(w, 0);
      NoBoundaryTail(w);
      assert s == [w[0]] + (w[1..] + rest);
      SplitCamelKeep(w[0], w[1..] + rest, sep);
      SplitCamelAfterWord(w[1..], rest, sep);
      assert w == [w[0]] + w[1..];
    }
  }

  /** Two words with no boundary of their own, the first ending in a lower-case letter and the second starting with a capital. */
  lemma SplitCamelTwoWords(w: string, v: string, sep: char)
    requires |w| > 0 && NoBoundary(w) && IsLower(w[|w| - 1])
    requires |v| > 0 && NoBoundary(v) && IsUpper(v[0])
    ensures SplitCamel(w + v, sep) == w + [sep] + v
  {
    SplitCamelAfterWord(w, v, sep);
    SplitCamelNoBoundary(v, sep);
  }

  predicate NoUnderscore(s: string) {
    forall i :: 0 <= i < |s| ==> s[i] != '_'
  }

  /** A name without underscores passes through the regex of tools.js:43 unchanged. */
  lemma {:induction false} JoinWordsNoUnderscore(s: string)
    requires NoUnderscore(s)
    ensures JoinWords(s) == s
    decreases |s|
  {
    if |s| >= 2 {
      JoinWordsNoUnderscore(s[1..]);
    }
  }

  /**
    Joining a word without underscores, then an underscore and a lower-case
    letter: that letter is capitalised and the underscore dropped.
   */
  lemma {:induction false} JoinWordsAfterWord(w: string, c: char, rest: string)
    requires NoUnderscore(w) && IsLower(c)
    ensures JoinWords(w + ['_', c] + rest) == w + [ToUpper(c)] + JoinWords(rest)
    decreases |w|
  {
    var s := w + ['_', c] + rest;
    if |w| == 0 {
      assert s == ['_', c] + rest;
    } else {
      assert s == [w[0]] + (w[1..] + ['_', c] + rest);
      JoinWordsAfterWord(w[1..], c, rest);
      assert w == [w[0]] + w[1..];
    }
  }

  /** Two words without underscores joined by an underscore before a lower-case letter. */
  lemma JoinWordsTwoWords(w: string, c: char, v: string)
    requires NoUnderscore(w) && IsLower(c) && NoUnderscore(v)
    ensures JoinWords(w + ['_', c] + v) == w + [ToUpper(c)] + v
  {
    JoinWordsAfterWord(w, c, v);
    JoinWordsNoUnderscore(v);
  }

  /**
    A digit before the underscore stops the regex of tools.js:39 from
    splitting the model name again: "user1_name" becomes "User1Name",
    which goes back to "user1name".
   */
  lemma DigitBreaksRoundTrip()
    ensures UnderscoreToPascal("user1" + "_" + "name") == "User1" + "Name"
  {
    JoinWordsTwoWords("user1", 'n', "ame");
    assert "user1" + "_" + "name" == "user1" + ['_', 'n'] + "ame";
  }

  lemma DigitBreaksRoundTripBack()
    ensures PascalToUnderscore("User1" + "Name") == "user1" + "name"
  {
    NoBoundaryAppend("User1", "Name");
    SplitCamelNoBoundary("User1" + "Name", '_');
    LowerAppend("User1", "Name");
    assert Lower("User1") == "user1";
    assert Lower("Name") == "name";
  }

  /** Two names with no boundary, the first not ending in a lower-case letter, have none together. */
  lemma NoBoundaryAppend(a: string, b: string)
    requires NoBoundary(a) && NoBoundary(b)
    requires |a| > 0 && !IsLower(a[|a| - 1])
    ensures NoBoundary(a + b)
  {
    var s := a + b;
    forall i | 0 <= i && i + 1 < |s|
      ensures !BoundaryAt(s, i)
    {
      if i + 1 < |a| {
        assert !BoundaryAt(a, i);
      } else if i >= |a| {
        assert s[i] == b[i - |a|] && s[i + 1] == b[i + 1 - |a|];
        assert !BoundaryAt(b, i - |a|);
      }
    }
  }

  /** An acronym does not survive the trip to a table name and back. */
  lemma AcronymBreaksRoundTrip()
    ensures PascalToUnderscore("AB") == "ab"
    ensures UnderscoreToPascal("ab") == "Ab"
  {
  }

  /** A one-letter word before another word turns into two adjacent capitals. */
  lemma ShortWordBreaksRoundTrip()
    ensures UnderscoreToPascal("a_b") == "AB"
    ensures PascalToUnderscore("AB") == "ab"
  {
  }

  /** The file name of a two-word model. */
  lemma ExampleFileName()
    ensures PascalToHyphen("User" + "Account") == "user" + "-" + "account"
  {
    SplitCamelTwoWords("User", "Account", '-');
  }

  /** A two-word model and its default table name, in both directions. */
  lemma ExampleTableName()
    ensures PascalToUnderscore("User" + "Account") == "user" + "_" + "account"
    ensures UnderscoreToPascal("user" + "_" + "account") == "User" + "Account"
  {
    SplitCamelTwoWords("User", "Account", '_');
    JoinWordsTwoWords("user", 'a', "ccount");
    assert "user" + "_" + "account" == "user" + ['_', 'a'] + "ccount";
  }

  /** The column name of a three-word property. */
  lemma ExampleColumnName()
    ensures CamelToUnderscore("last" + ("Login" + "At")) == "last" + "_" + "login" + "_" + "at"
  {
    SplitCamelAfterWord("last", "Login" + "At", '_');
    SplitCamelTwoWords("Login", "At", '_');
  }
}

=== FILE: results.dfy ===
/** The optional values and error results the model's operations return. */
module Results {

  datatype Option<T> = None | Some(value: T)

  datatype Result<T, E> = Ok(value: T) | Err(error: E)
}

=== FILE: update.dfy ===
/**
  The update command (lb-update-update.js): for each selected model, read its
  definition, discover the schema of its table, and reconcile the model's
  properties with the table's columns.
 */
module Update {
  import opened Results
  import opened NameTransform
  import opened ModelFiles
  import opened Models

  /**
    The table a model is stored in (lb-update-update.js:14-20): `mysql.table`, else
    `options.mysql.table`, else the underscore form of the model name. A
    definition with neither a top-level `mysql` nor an `options` object makes
    line 16 dereference `undefined`.
   */
  function ResolveTable(m: ModelDef): (r: Result<string, Failure>)
    ensures r.Err? <==> m.mysql.None? && m.options.None?
    ensures r.Err? ==> r.error == OptionsMissing(m.name)
    ensures m.mysql.Some? ==> r == Ok(m.mysql.value.table)
    ensures m.mysql.None? && m.options.Some? && m.options.value.mysql.Some? ==> r == Ok(m.options.value.mysql.value.table)
    ensures m.mysql.None? && m.options.Some? && m.options.value.mysql.None? ==> r == Ok(PascalToUnderscore(m.name))
  {
    if m.mysql.Some? then Ok(m.mysql.value.table)
    else if m.options.None? then Err(OptionsMissing(m.name))
    else if m.options.value.mysql.Some? then Ok(m.options.value.mysql.value.table)
    else Ok(PascalToUnderscore(m.name))
  }

  /**
    A model whose name came from a snake-case table and that names no table
    of its own is looked up in that same table again.
   */
  lemma DefaultTableRoundTrip(m: ModelDef, table: string)
    requires SnakeCase(table) && m.name == UnderscoreToPascal(table)
    requires m.mysql.None? && m.options.Some? && m.options.value.mysql.None?
    ensures ResolveTable(m) == Ok(table)
  {
    UnderscorePascalRoundTrip(table);
  }

  /** Whether a reported setting is copied: a default one, or any with the properties flag (lb-update-update.js:43). */
  predicate Synchronised(setting: string, copyAll: bool) {
    setting in DefaultSettings || copyAll
  }

  /** The copied settings whose value in the model differs from the reported one (lb-update-update.js:43-44). */
  function Changed(current: Settings, reported: Settings, copyAll: bool): set<string>
  {
    set s | s in reported && Synchronised(s, copyAll) && (s !in current || current[s] != reported[s])
  }

  /** Every copied setting of the report holds the reported value in the settings. */
  predicate SyncedWith(settings: Settings, reported: Settings, copyAll: bool) {
    forall s :: s in reported && Synchronised(s, copyAll) ==> s in settings && settings[s] == reported[s]
  }

  /** Two settings maps agree on every setting the update does not copy. */
  predicate SameUnsynced(a: Settings, b: Settings, copyAll: bool) {
    && (forall s :: s in a && !Synchronised(s, copyAll) ==> s in b && a[s] == b[s])
    && (forall s :: s in b && !Synchronised(s, copyAll) ==> s in a)
  }

  /**
    The setting loop of one property (lb-update-update.js:41-48): each copied setting
    whose value differs is overwritten with the reported value.
   */
  function MergeSettings(current: Settings, reported: Settings, copyAll: bool): (r: Settings)
    ensures SyncedWith(r, reported, copyAll)
    ensures r.Keys == current.Keys + set s | s in reported && Synchronised(s, copyAll)
    ensures forall s :: s in current && !(s in reported && Synchronised(s, copyAll)) ==> r[s] == current[s]
    ensures SameUnsynced(r, current, copyAll)
  {
    current + Copied(reported, copyAll)
  }

  /** The reported settings the update copies. */
  function Copied(reported: Settings, copyAll: bool): Settings
  {
    map s | s in reported && Synchronised(s, copyAll) :: reported[s]
  }

  /** Nothing is written exactly when the merge leaves the settings as they were. */
  lemma NoChangeIff(current: Settings, reported: Settings, copyAll: bool)
    ensures Changed(current, reported, copyAll) == {} <==> MergeSettings(current, reported, copyAll) == current
  {
    var r := MergeSettings(current, reported, copyAll);
    if Changed(current, reported, copyAll) == {} {
      forall s | s in reported && Synchronised(s, copyAll)
        ensures s in current && current[s] == reported[s]
      {
        assert s !in Changed(current, reported, copyAll);
      }
      assert r.Keys == current.Keys;
      forall s | s in r ensures r[s] == current[s] {
      }
    }
    if r == current {
      forall s | s in reported && Synchronised(s, copyAll)
        ensures s in current && current[s] == reported[s]
      {
        assert s in r && r[s] == reported[s];
      }
    }
  }

  /** Merging the same report a second time writes nothing. */
  lemma MergeSettingsIdempotent(current: Settings, reported: Settings, copyAll: bool)
    ensures Changed(MergeSettings(current, reported, copyAll), reported, copyAll) == {}
    ensures MergeSettings(MergeSettings(current, reported, copyAll), reported, copyAll)
            == MergeSettings(current, reported, copyAll)
  {
    var m := MergeSettings(current, reported, copyAll);
    assert SyncedWith(m, reported, copyAll);
    NoChangeIff(m, reported, copyAll);
  }

  /** The state of the loop at lb-update-update.js:30-49. */
  datatype Pass = Pass(schema: map<string, Settings>, props: Properties, writes: nat)

  /** A property the model lacks is created empty (lb-update-update.js:38-40). */
  function Current(props: Properties, n: string): Settings
  {
    if n in props then props[n] else map[]
  }

  /** One iteration: rename the column, create the property, merge its settings. */
  function Visit(p: Pass, k: string, norm: string -> string, copyAll: bool): Pass
    requires k in p.schema
  {
    var schema := Rename(p.schema, k, norm);
    var n := norm(k);
    var current := Current(p.props, n);
    var reported := schema[n];
    Pass(schema, p.props[n := MergeSettings(current, reported, copyAll)],
         p.writes + |Changed(current, reported, copyAll)|)
  }

  /** The loop over the key snapshot taken at lb-update-update.js:30. */
  function VisitAll(keys: seq<string>, p: Pass, norm: string -> string, copyAll: bool): Pass
    requires Pending(keys, p.schema)
    decreases |keys|
  {
    if keys == [] then p
    else
      PendingAfterRename(keys, p.schema, norm);
      VisitAll(keys[1..], Visit(p, keys[0], norm, copyAll), norm, copyAll)
  }

  /** The loop unfolded once. */
  lemma VisitAllCons(keys: seq<string>, p: Pass, norm: string -> string, copyAll: bool)
    requires |keys| > 0 && Pending(keys, p.schema)
    ensures Pending(keys[1..], Visit(p, keys[0], norm, copyAll).schema)
    ensures VisitAll(keys, p, norm, copyAll) == VisitAll(keys[1..], Visit(p, keys[0], norm, copyAll), norm, copyAll)
  {
    PendingAfterRename(keys, p.schema, norm);
  }

  /** The loop renames the schema exactly as the plain rename fold does. */
  lemma {:induction false} VisitAllSchema(keys: seq<string>, p: Pass, norm: string -> string, copyAll: bool)
    requires Pending(keys, p.schema)
    ensures VisitAll(keys, p, norm, copyAll).schema == RenameAll(keys, p.schema, norm)
    decreases |keys|
  {
    if keys != [] {
      VisitAllCons(keys, p, norm, copyAll);
      VisitAllSchema(keys[1..], Visit(p, keys[0], norm, copyAll), norm, copyAll);
    }
  }

  /** The loop adds a property for every normalized name and removes none. */
  lemma {:induction false} VisitAllPropertyNames(keys: seq<string>, p: Pass, norm: string -> string, copyAll: bool)
    requires Pending(keys, p.schema)
    ensures VisitAll(keys, p, norm, copyAll).props.Keys == p.props.Keys + Normalized(keys, norm)
    decreases |keys|
  {
    if keys != [] {
      VisitAllCons(keys, p, norm, copyAll);
      NormalizedCons(keys, norm);
      VisitAllPropertyNames(keys[1..], Visit(p, keys[0], norm, copyAll), norm, copyAll);
    }
  }

  /** Every property named in `names` holds the copied settings of its schema entry. */
  predicate InSync(p: Pass, names: set<string>, copyAll: bool) {
    forall n :: n in names ==> n in p.props && n in p.schema && SyncedWith(p.props[n], p.schema[n], copyAll)
  }

  /** Every name in the set is normalized. */
  ghost predicate AllNormal(names: set<string>, norm: string -> string) {
    forall n :: n in names ==> norm(n) == n
  }

  /** One iteration keeps the earlier names in step and brings the visited one in step. */
  lemma VisitInSync(p: Pass, k: string, names: set<string>, norm: string -> string, copyAll: bool)
    requires k in p.schema && InSync(p, names, copyAll) && AllNormal(names, norm)
    ensures InSync(Visit(p, k, norm, copyAll), names + {norm(k)}, copyAll)
  {
    var p1 := Visit(p, k, norm, copyAll);
    var n := norm(k);
    forall v | v in names + {n}
      ensures v in p1.props && v in p1.schema && SyncedWith(p1.props[v], p1.schema[v], copyAll)
    {
      if v != n {
        assert norm(v) == v;
        assert p1.schema[v] == p.schema[v];
      }
    }
  }

  /**
    Once a property has been merged it stays in step with its schema entry:
    a later rename into the same name is followed by a merge of the new entry,
    and no rename removes a normalized name.
   */
  lemma {:induction false} VisitAllInSync(keys: seq<string>, p: Pass, names: set<string>, norm: string -> string, copyAll: bool)
    requires Pending(keys, p.schema) && InSync(p, names, copyAll)
    requires Idempotent(norm) && AllNormal(names, norm)
    ensures InSync(VisitAll(keys, p, norm, copyAll), names + Normalized(keys, norm), copyAll)
    decreases |keys|
  {
    if keys != [] {
      var n := norm(keys[0]);
      VisitAllCons(keys, p, norm, copyAll);
      NormalizedCons(keys, norm);
      VisitInSync(p, keys[0], names, norm, copyAll);
      assert norm(n) == n;
      VisitAllInSync(keys[1..], Visit(p, keys[0], norm, copyAll), names + {n}, norm, copyAll);
      assert names + {n} + Normalized(keys[1..], norm) == names + Normalized(keys, norm);
    }
  }

  /** Settings the update does not copy keep the values they had before the loop. */
  predicate KeepsUnsynced(props: Properties, before: Properties, copyAll: bool) {
    forall n :: n in props ==> SameUnsynced(props[n], Current(before, n), copyAll)
  }

  lemma VisitKeepsUnsynced(p: Pass, k: string, before: Properties, norm: string -> string, copyAll: bool)
    requires k in p.schema && KeepsUnsynced(p.props, before, copyAll)
    requires forall n :: n in before ==> n in p.props
    ensures KeepsUnsynced(Visit(p, k, norm, copyAll).props, before, copyAll)
    ensures forall n :: n in before ==> n in Visit(p, k, norm, copyAll).props
  {
    var n := norm(k);
    assert Current(p.props, n) == Current(before, n) || n in p.props;
  }

  lemma {:induction false} VisitAllKeepsUnsynced(keys: seq<string>, p: Pass, before: Properties, norm: string -> string, copyAll: bool)
    requires Pending(keys, p.schema) && KeepsUnsynced(p.props, before, copyAll)
    requires forall n :: n in before ==> n in p.props
    ensures KeepsUnsynced(VisitAll(keys, p, norm, copyAll).props, before, copyAll)
    decreases |keys|
  {
    if keys != [] {
      VisitAllCons(keys, p, norm, copyAll);
      VisitKeepsUnsynced(p, keys[0], before, norm, copyAll);
      VisitAllKeepsUnsynced(keys[1..], Visit(p, keys[0], norm, copyAll), before, norm, copyAll);
    }
  }

  /** A property no visited column normalizes to is left alone. */
  lemma {:induction false} VisitAllFrame(keys: seq<string>, p: Pass, x: string, norm: string -> string, copyAll: bool)
    requires Pending(keys, p.schema) && x !in Normalized(keys, norm)
    ensures (x in VisitAll(keys, p, norm, copyAll).props <==> x in p.props)
    ensures x in p.props ==> VisitAll(keys, p, norm, copyAll).props[x] == p.props[x]
    decreases |keys|
  {
    if keys != [] {
      VisitAllCons(keys, p, norm, copyAll);
      NormalizedCons(keys, norm);
      VisitAllFrame(keys[1..], Visit(p, keys[0], norm, copyAll), x, norm, copyAll);
    }
  }

  /** What the loop does to the property of each column, when no two columns collapse. */
  ghost predicate MergedEach(keys: seq<string>, p: Pass, r: Pass, norm: string -> string, copyAll: bool)
    requires Pending(keys, p.schema)
  {
    forall i :: 0 <= i < |keys| ==>
      norm(keys[i]) in r.props
      && r.props[norm(keys[i])] == MergeSettings(Current(p.props, norm(keys[i])), p.schema[keys[i]], copyAll)
  }

  /** No column's merge changes anything. */
  ghost predicate NothingChanged(keys: seq<string>, p: Pass, norm: string -> string, copyAll: bool)
    requires Pending(keys, p.schema)
  {
    forall i :: 0 <= i < |keys| ==> Changed(Current(p.props, norm(keys[i])), p.schema[keys[i]], copyAll) == {}
  }

  /** Facts about one iteration when the visited name is fresh for the rest of the loop. */
  lemma VisitFresh(keys: seq<string>, p: Pass, norm: string -> string, copyAll: bool)
    requires |keys| > 0 && Pending(keys, p.schema) && DistinctAfterRename(keys, norm) && Idempotent(norm)
    ensures Visit(p, keys[0], norm, copyAll).schema[norm(keys[0])] == p.schema[keys[0]]
    ensures forall i :: 0 < i < |keys| ==>
              && Current(Visit(p, keys[0], norm, copyAll).props, norm(keys[i])) == Current(p.props, norm(keys[i]))
              && Visit(p, keys[0], norm, copyAll).schema[keys[i]] == p.schema[keys[i]]
  {
    var rest := keys[1..];
    FirstNameIsFresh(keys, norm);
    forall i | 0 < i < |keys|
      ensures norm(keys[i]) != norm(keys[0]) && keys[i] != keys[0] && keys[i] != norm(keys[0])
    {
      assert keys[i] == rest[i - 1];
    }
  }

  /**
    Without collisions each property ends up as its old settings merged with
    exactly the settings its own column reported.
   */
  lemma {:induction false} VisitAllDistinct(keys: seq<string>, p: Pass, norm: string -> string, copyAll: bool)
    requires Pending(keys, p.schema) && DistinctAfterRename(keys, norm) && Idempotent(norm)
    ensures MergedEach(keys, p, VisitAll(keys, p, norm, copyAll), norm, copyAll)
    decreases |keys|
  {
    if keys != [] {
      var k := keys[0];
      var rest := keys[1..];
      var p1 := Visit(p, k, norm, copyAll);
      var r := VisitAll(keys, p, norm, copyAll);
      VisitAllCons(keys, p, norm, copyAll);
      DistinctAfterRenameTail(keys, norm);
      VisitAllDistinct(rest, p1, norm, copyAll);
      VisitFresh(keys, p, norm, copyAll);
      FirstNameIsFresh(keys, norm);
      VisitAllFrame(rest, p1, norm(k), norm, copyAll);
      forall i | 0 <= i < |keys|
        ensures norm(keys[i]) in r.props
        ensures r.props[norm(keys[i])] == MergeSettings(Current(p.props, norm(keys[i])), p.schema[keys[i]], copyAll)
      {
        if i > 0 {
          assert keys[i] == rest[i - 1];
        }
      }
    }
  }

  /** Nothing changes in the whole loop exactly when nothing changes now and nothing later. */
  lemma NothingChangedCons(keys: seq<string>, p: Pass, norm: string -> string, copyAll: bool)
    requires |keys| > 0 && Pending(keys, p.schema) && DistinctAfterRename(keys, norm) && Idempotent(norm)
    ensures Pending(keys[1..], Visit(p, keys[0], norm, copyAll).schema)
    ensures NothingChanged(keys, p, norm, copyAll) <==>
            Changed(Current(p.props, norm(keys[0])), p.schema[keys[0]], copyAll) == {}
            && NothingChanged(keys[1..], Visit(p, keys[0], norm, copyAll), norm, copyAll)
  {
    var rest := keys[1..];
    var p1 := Visit(p, keys[0], norm, copyAll);
    PendingAfterRename(keys, p.schema, norm);
    VisitFresh(keys, p, norm, copyAll);
    forall i | 0 <= i < |rest|
      ensures Changed(Current(p1.props, norm(rest[i])), p1.schema[rest[i]], copyAll)
              == Changed(Current(p.props, norm(keys[i + 1])), p.schema[keys[i + 1]], copyAll)
    {
      assert rest[i] == keys[i + 1];
    }
    if NothingChanged(rest, p1, norm, copyAll) && Changed(Current(p.props, norm(keys[0])), p.schema[keys[0]], copyAll) == {} {
      forall i | 0 <= i < |keys|
        ensures Changed(Current(p.props, norm(keys[i])), p.schema[keys[i]], copyAll) == {}
      {
        if i > 0 {
          assert keys[i] == rest[i - 1];
        }
      }
    }
  }

  /** Without collisions the loop counts a write exactly when some merge changes something. */
  lemma {:induction false} VisitAllWrites(keys: seq<string>, p: Pass, norm: string -> string, copyAll: bool)
    requires Pending(keys, p.schema) && DistinctAfterRename(keys, norm) && Idempotent(norm)
    ensures VisitAll(keys, p, norm, copyAll).writes >= p.writes
    ensures VisitAll(keys, p, norm, copyAll).writes == p.writes <==> NothingChanged(keys, p, norm, copyAll)
    decreases |keys|
  {
    if keys != [] {
      var p1 := Visit(p, keys[0], norm, copyAll);
      VisitAllCons(keys, p, norm, copyAll);
      DistinctAfterRenameTail(keys, norm);
      VisitAllWrites(keys[1..], p1, norm, copyAll);
      NothingChangedCons(keys, p, norm, copyAll);
      assert p1.writes == p.writes + |Changed(Current(p.props, norm(keys[0])), Rename(p.schema, keys[0], norm)[norm(keys[0])], copyAll)|;
      VisitFresh(keys, p, norm, copyAll);
    }
  }

  /** The result of reconciling one model with its table. */
  datatype Reconciled = Reconciled(
    model: ModelDef,
    schema: map<string, Settings>,
    writes: nat,
    pruned: set<string>)

  /**
    `defaultReplace` once the schema is known (lb-update-update.js:29-57): rename and
    merge every column, then delete the properties no column maps to.
   */
  function Reconcile(m: ModelDef, cols: seq<Column>, copyAll: bool): (r: Reconciled)
    requires UniqueNames(cols)
    ensures r.model == m.(properties := r.model.properties)
    ensures r.model.properties.Keys == NormalizedNames(cols)
    ensures r.schema.Keys == NormalizedNames(cols)
    ensures forall n :: n in r.model.properties ==> SyncedWith(r.model.properties[n], r.schema[n], copyAll)
    ensures forall n :: n in r.model.properties ==> SameUnsynced(r.model.properties[n], Current(m.properties, n), copyAll)
    ensures r.pruned == m.properties.Keys - NormalizedNames(cols)
    ensures r.schema == Renamed(cols)
  {
    var p := ReconcilePass(m, cols, copyAll);
    ReconcilePassFacts(m, cols, copyAll);
    var kept := map n | n in p.props && n in p.schema :: p.props[n];
    Reconciled(m.(properties := kept), p.schema, p.writes, p.props.Keys - p.schema.Keys)
  }

  /** The state after the column loop of `defaultReplace`. */
  function ReconcilePass(m: ModelDef, cols: seq<Column>, copyAll: bool): Pass
    requires UniqueNames(cols)
  {
    NamesAreKeys(cols);
    VisitAll(Names(cols), Pass(ColumnMap(cols), m.properties, 0), CamelToUnderscore, copyAll)
  }

  lemma ReconcilePassFacts(m: ModelDef, cols: seq<Column>, copyAll: bool)
    requires UniqueNames(cols)
    ensures ReconcilePass(m, cols, copyAll).schema.Keys == NormalizedNames(cols)
    ensures ReconcilePass(m, cols, copyAll).props.Keys == m.properties.Keys + NormalizedNames(cols)
    ensures InSync(ReconcilePass(m, cols, copyAll), NormalizedNames(cols), copyAll)
    ensures KeepsUnsynced(ReconcilePass(m, cols, copyAll).props, m.properties, copyAll)
    ensures ReconcilePass(m, cols, copyAll).schema == Renamed(cols)
  {
    NamesAreKeys(cols);
    CamelToUnderscoreIsIdempotent();
    var keys := Names(cols);
    var start := Pass(ColumnMap(cols), m.properties, 0);
    VisitAllSchema(keys, start, CamelToUnderscore, copyAll);
    RenameAllKeys(keys, start.schema, CamelToUnderscore);
    VisitAllPropertyNames(keys, start, CamelToUnderscore, copyAll);
    VisitAllInSync(keys, start, {}, CamelToUnderscore, copyAll);
    assert {} + Normalized(keys, CamelToUnderscore) == Normalized(keys, CamelToUnderscore);
    forall n | n in m.properties
      ensures SameUnsynced(m.properties[n], Current(m.properties, n), copyAll)
    {
    }
    VisitAllKeepsUnsynced(keys, start, m.properties, CamelToUnderscore, copyAll);
  }

  /** The schema's columns, each under its own name, normalize to distinct names. */
  lemma DistinctColumns(cols: seq<Column>)
    requires UniqueNames(cols) && DistinctNormalized(cols)
    ensures DistinctAfterRename(Names(cols), CamelToUnderscore)
    ensures forall i :: 0 <= i < |cols| ==> cols[i].name in ColumnMap(cols) && ColumnMap(cols)[cols[i].name] == cols[i].settings
  {
    ColumnMapValues(cols);
  }

  /**
    When no two columns share an underscore name, each property is the old
    property (or an empty one) merged with its column's settings, and the
    update reports zero writes exactly when no merge changes anything.
   */
  lemma ReconcileDistinct(m: ModelDef, cols: seq<Column>, copyAll: bool)
    requires UniqueNames(cols) && DistinctNormalized(cols)
    ensures forall i :: 0 <= i < |cols| ==>
              var n := CamelToUnderscore(cols[i].name);
              n in Reconcile(m, cols, copyAll).model.properties
              && Reconcile(m, cols, copyAll).model.properties[n]
                 == MergeSettings(Current(m.properties, n), cols[i].settings, copyAll)
    ensures Reconcile(m, cols, copyAll).writes == 0 <==>
              forall i :: 0 <= i < |cols| ==>
                Changed(Current(m.properties, CamelToUnderscore(cols[i].name)), cols[i].settings, copyAll) == {}
  {
    NamesAreKeys(cols);
    DistinctColumns(cols);
    CamelToUnderscoreIsIdempotent();
    var keys := Names(cols);
    var start := Pass(ColumnMap(cols), m.properties, 0);
    VisitAllDistinct(keys, start, CamelToUnderscore, copyAll);
    VisitAllWrites(keys, start, CamelToUnderscore, copyAll);
    ReconcilePassFacts(m, cols, copyAll);
    var r := Reconcile(m, cols, copyAll);
    forall i | 0 <= i < |cols|
      ensures CamelToUnderscore(cols[i].name) in NormalizedNames(cols)
    {
      assert keys[i] == cols[i].name;
    }
  }

  /** Every property name of the result comes from some column. */
  lemma NormalizedNameHasColumn(cols: seq<Column>, n: string)
    requires n in NormalizedNames(cols)
    ensures exists i :: 0 <= i < |cols| && CamelToUnderscore(cols[i].name) == n
  {
    var keys := Names(cols);
    var k :| k in keys && CamelToUnderscore(k) == n;
    var i :| 0 <= i < |keys| && keys[i] == k;
    assert CamelToUnderscore(cols[i].name) == n;
  }

  /** A second reconcile leaves every property as the first one left it. */
  lemma ReconcileAgainProperties(m: ModelDef, cols: seq<Column>, copyAll: bool)
    requires UniqueNames(cols) && DistinctNormalized(cols)
    ensures Reconcile(Reconcile(m, cols, copyAll).model, cols, copyAll).model.properties
            == Reconcile(m, cols, copyAll).model.properties
  {
    var r1 := Reconcile(m, cols, copyAll);
    var r2 := Reconcile(r1.model, cols, copyAll);
    ReconcileDistinct(m, cols, copyAll);
    ReconcileDistinct(r1.model, cols, copyAll);
    forall n | n in r2.model.properties
      ensures r2.model.properties[n] == r1.model.properties[n]
    {
      NormalizedNameHasColumn(cols, n);
      var i :| 0 <= i < |cols| && CamelToUnderscore(cols[i].name) == n;
      MergeSettingsIdempotent(Current(m.properties, n), cols[i].settings, copyAll);
    }
  }

  /** A second reconcile finds nothing to write. */
  lemma ReconcileAgainWrites(m: ModelDef, cols: seq<Column>, copyAll: bool)
    requires UniqueNames(cols) && DistinctNormalized(cols)
    ensures Reconcile(Reconcile(m, cols, copyAll).model, cols, copyAll).writes == 0
  {
    var r1 := Reconcile(m, cols, copyAll);
    ReconcileDistinct(m, cols, copyAll);
    ReconcileDistinct(r1.model, cols, copyAll);
    forall i | 0 <= i < |cols|
      ensures Changed(Current(r1.model.properties, CamelToUnderscore(cols[i].name)), cols[i].settings, copyAll) == {}
    {
      MergeSettingsIdempotent(Current(m.properties, CamelToUnderscore(cols[i].name)), cols[i].settings, copyAll);
    }
  }

  /**
    Reconciling the result again against the same schema returns an equal
    model, reports zero writes and prunes nothing (lb-update-update.js:44-46), as long as
    no two columns share an underscore name.
   */
  lemma ReconcileIdempotent(m: ModelDef, cols: seq<Column>, copyAll: bool)
    requires UniqueNames(cols) && DistinctNormalized(cols)
    ensures Reconcile(Reconcile(m, cols, copyAll).model, cols, copyAll).model == Reconcile(m, cols, copyAll).model
    ensures Reconcile(Reconcile(m, cols, copyAll).model, cols, copyAll).writes == 0
    ensures Reconcile(Reconcile(m, cols, copyAll).model, cols, copyAll).pruned == {}
  {
    ReconcileAgainProperties(m, cols, copyAll);
    ReconcileAgainWrites(m, cols, copyAll);
  }

  /** Tables as discovery reports them: each schema's column names are distinct. */
  predicate WellFormedTables(tables: map<string, seq<Column>>) {
    forall t :: t in tables ==> UniqueNames(tables[t])
  }

  /** The names of the loaded models on a datasource, in registry order (lb-update-update.js:65-67). */
  function OnDatasource(app: seq<AppModel>, datasource: string): (r: seq<string>)
    ensures forall x :: x in r <==> exists a :: a in app && a.name == x && a.dataSource == Some(datasource)
  {
    if app == [] then []
    else
      var rest := OnDatasource(app[1..], datasource);
      assert forall a :: a in app <==> a == app[0] || a in app[1..];
      if app[0].dataSource == Some(datasource) then [app[0].name] + rest else rest
  }

  /**
    The position of the first loaded model whose configuration gives no
    datasource, or the number of models when every one gives one: reading
    `config.dataSource.name` throws there (lb-update-update.js:67).
   */
  function FirstUnset(app: seq<AppModel>): (k: nat)
    ensures k <= |app|
    ensures forall j :: 0 <= j < k ==> app[j].dataSource.Some?
    ensures k < |app| ==> app[k].dataSource.None?
  {
    if app == [] || app[0].dataSource.None? then 0 else 1 + FirstUnset(app[1..])
  }

  /** The models the update command visits, and the failure that ends the scan early. */
  datatype Targets = Targets(names: seq<string>, unset: Option<Failure>)

  /**
    The models the update command visits (lb-update-update.js:64-79): with
    `--all`, the loaded models on the datasource, up to the first model that
    gives no datasource, whose name the failure carries; otherwise the names
    given, whatever datasource they use.
   */
  function UpdateTargets(datasource: string, modelNames: seq<string>, app: seq<AppModel>, all: bool): (r: Targets)
    ensures all && (forall a :: a in app ==> a.dataSource.Some?) ==>
              r.unset.None? && forall x :: x in r.names <==> exists a :: a in app && a.name == x && a.dataSource == Some(datasource)
    ensures all && (exists a :: a in app && a.dataSource.None?) ==>
              exists k :: 0 <= k < |app| && app[k].dataSource.None?
                && (forall j :: 0 <= j < k ==> app[j].dataSource.Some?)
                && r.unset == Some(DatasourceUnset(app[k].name))
                && forall x :: x in r.names <==> exists j :: 0 <= j < k && app[j].name == x && app[j].dataSource == Some(datasource)
    ensures !all ==> r == Targets(modelNames, None)
  {
    if all then
      var k := FirstUnset(app);
      assert forall a :: a in app[..k] <==> exists j :: 0 <= j < k && app[j] == a;
      Targets(OnDatasource(app[..k], datasource), if k < |app| then Some(DatasourceUnset(app[k].name)) else None)
    else Targets(modelNames, None)
  }

  /**
    One model (lb-update-update.js:68-70 and 75-77): read its definition, resolve its
    table, discover the table's schema and reconcile.
   */
  function UpdateOne(files: map<string, ModelDef>, target: string, tables: map<string, seq<Column>>, copyAll: bool): (r: Result<Reconciled, Failure>)
    requires WellFormedTables(tables)
    ensures JsonPath(target) !in files ==> r == Err(ModelFileMissing(JsonPath(target)))
    ensures r.Ok? ==> JsonPath(target) in files && r.value.model == files[JsonPath(target)].(properties := r.value.model.properties)
    ensures JsonPath(target) in files && ResolveTable(files[JsonPath(target)]).Err? ==>
              r == Err(ResolveTable(files[JsonPath(target)]).error)
    ensures JsonPath(target) in files && ResolveTable(files[JsonPath(target)]).Ok?
            && ResolveTable(files[JsonPath(target)]).value !in tables ==>
              r == Err(TableNotFound(ResolveTable(files[JsonPath(target)]).value))
    ensures JsonPath(target) in files && ResolveTable(files[JsonPath(target)]).Ok?
            && ResolveTable(files[JsonPath(target)]).value in tables ==>
              r == Ok(Reconcile(files[JsonPath(target)], tables[ResolveTable(files[JsonPath(target)]).value], copyAll))
  {
    var path := JsonPath(target);
    if path !in files then Err(ModelFileMissing(path))
    else
      match ResolveTable(files[path])
      case Err(e) => Err(e)
      case Ok(table) =>
        if table !in tables then Err(TableNotFound(table))
        else Ok(Reconcile(files[path], tables[table], copyAll))
  }

  /** The outcome of the update command: the model files, the writes reported, and the first failure. */
  datatype UpdateRun = UpdateRun(files: map<string, ModelDef>, writes: nat, failure: Option<Failure>)

  /**
    The handler loop (lb-update-update.js:63-80): models are updated one after another,
    each written back to the file its own name designates; the first failure
    ends the run and keeps the files written before it.
   */
  function UpdateModels(files: map<string, ModelDef>, targets: seq<string>, tables: map<string, seq<Column>>, copyAll: bool): UpdateRun
    requires WellFormedTables(tables)
    decreases |targets|
  {
    if targets == [] then UpdateRun(files, 0, None)
    else
      match UpdateOne(files, targets[0], tables, copyAll)
      case Err(e) => UpdateRun(files, 0, Some(e))
      case Ok(r) =>
        var rest := UpdateModels(files[JsonPath(r.model.name) := r.model], targets[1..], tables, copyAll);
        UpdateRun(rest.files, r.writes + rest.writes, rest.failure)
  }

  /** Every definition file is named after the model it holds. */
  predicate Consistent(files: map<string, ModelDef>) {
    forall path :: path in files ==> path == JsonPath(files[path].name)
  }

  /** A target's file holds a model whose properties match its table's columns. */
  predicate UpToDate(files: map<string, ModelDef>, target: string, tables: map<string, seq<Column>>) {
    var path := JsonPath(target);
    && path in files
    && ResolveTable(files[path]).Ok?
    && ResolveTable(files[path]).value in tables
    && files[path].properties.Keys == NormalizedNames(tables[ResolveTable(files[path]).value])
  }

  /** A reconciled model keeps its table, so a file once up to date stays so. */
  lemma ReconcileKeepsTable(m: ModelDef, cols: seq<Column>, copyAll: bool)
    requires UniqueNames(cols)
    ensures ResolveTable(Reconcile(m, cols, copyAll).model) == ResolveTable(m)
  {
  }

  /** One successful step writes the target's own file, which already exists. */
  lemma UpdateStep(files: map<string, ModelDef>, target: string, tables: map<string, seq<Column>>, copyAll: bool)
    requires WellFormedTables(tables) && Consistent(files)
    requires UpdateOne(files, target, tables, copyAll).Ok?
    ensures JsonPath(UpdateOne(files, target, tables, copyAll).value.model.name) == JsonPath(target)
    ensures Consistent(files[JsonPath(target) := UpdateOne(files, target, tables, copyAll).value.model])
    ensures UpToDate(files[JsonPath(target) := UpdateOne(files, target, tables, copyAll).value.model], target, tables)
  {
    var path := JsonPath(target);
    ReconcileKeepsTable(files[path], tables[ResolveTable(files[path]).value], copyAll);
  }

  /** A run that starts at a successful step continues from the file that step wrote. */
  lemma UpdateModelsCons(files: map<string, ModelDef>, targets: seq<string>, tables: map<string, seq<Column>>, copyAll: bool)
    requires WellFormedTables(tables) && targets != []
    requires UpdateOne(files, targets[0], tables, copyAll).Ok?
    ensures var r := UpdateOne(files, targets[0], tables, copyAll).value;
            var rest := UpdateModels(files[JsonPath(r.model.name) := r.model], targets[1..], tables, copyAll);
            UpdateModels(files, targets, tables, copyAll).files == rest.files
            && UpdateModels(files, targets, tables, copyAll).failure == rest.failure
  {
  }

  /** On consistent files the update creates no file and keeps every file named after its model. */
  lemma {:induction false} UpdateModelsConsistent(files: map<string, ModelDef>, targets: seq<string>, tables: map<string, seq<Column>>, copyAll: bool)
    requires WellFormedTables(tables) && Consistent(files)
    ensures Consistent(UpdateModels(files, targets, tables, copyAll).files)
    ensures UpdateModels(files, targets, tables, copyAll).files.Keys == files.Keys
    decreases |targets|
  {
    if targets != [] && UpdateOne(files, targets[0], tables, copyAll).Ok? {
      var t := targets[0];
      UpdateStep(files, t, tables, copyAll);
      UpdateModelsCons(files, targets, tables, copyAll);
      UpdateModelsConsistent(files[JsonPath(t) := UpdateOne(files, t, tables, copyAll).value.model], targets[1..], tables, copyAll);
    }
  }

  /** On consistent files the update rewrites only the files of its targets. */
  lemma {:induction false} UpdateModelsFrame(files: map<string, ModelDef>, targets: seq<string>, tables: map<string, seq<Column>>, copyAll: bool)
    requires WellFormedTables(tables) && Consistent(files)
    ensures forall path :: path in files && (forall t :: t in targets ==> path != JsonPath(t)) ==>
              path in UpdateModels(files, targets, tables, copyAll).files
              && UpdateModels(files, targets, tables, copyAll).files[path] == files[path]
    decreases |targets|
  {
    if targets != [] && UpdateOne(files, targets[0], tables, copyAll).Ok? {
      var t := targets[0];
      UpdateStep(files, t, tables, copyAll);
      UpdateModelsCons(files, targets, tables, copyAll);
      var files1 := files[JsonPath(t) := UpdateOne(files, t, tables, copyAll).value.model];
      UpdateModelsFrame(files1, targets[1..], tables, copyAll);
      assert forall x :: x in targets[1..] ==> x in targets;
    }
  }

  /** When the update completes, every target's file is up to date. */
  lemma {:induction false} UpdateModelsComplete(files: map<string, ModelDef>, targets: seq<string>, tables: map<string, seq<Column>>, copyAll: bool)
    requires WellFormedTables(tables) && Consistent(files)
    ensures UpdateModels(files, targets, tables, copyAll).failure.None? ==>
              forall t :: t in targets ==> UpToDate(UpdateModels(files, targets, tables, copyAll).files, t, tables)
    decreases |targets|
  {
    if targets != [] {
      var t := targets[0];
      var one := UpdateOne(files, t, tables, copyAll);
      if one.Ok? {
        UpdateStep(files, t, tables, copyAll);
        UpdateModelsCons(files, targets, tables, copyAll);
        var files1 := files[JsonPath(t) := one.value.model];
        UpdateModelsComplete(files1, targets[1..], tables, copyAll);
        UpToDateKept(files1, targets[1..], tables, copyAll, t);
        forall x | x in targets
          ensures UpdateModels(files, targets, tables, copyAll).failure.None? ==> UpToDate(UpdateModels(files, targets, tables, copyAll).files, x, tables)
        {
          if x != t {
            assert x in targets[1..];
          }
        }
      }
    }
  }

  /** A file that is up to date stays so through the rest of the run. */
  lemma {:induction false} UpToDateKept(files: map<string, ModelDef>, targets: seq<string>, tables: map<string, seq<Column>>, copyAll: bool, x: string)
    requires WellFormedTables(tables) && Consistent(files) && UpToDate(files, x, tables)
    ensures UpToDate(UpdateModels(files, targets, tables, copyAll).files, x, tables)
    decreases |targets|
  {
    if targets != [] {
      var one := UpdateOne(files, targets[0], tables, copyAll);
      if one.Ok? {
        var path := JsonPath(targets[0]);
        UpdateStep(files, targets[0], tables, copyAll);
        var files1 := files[path := one.value.model];
        assert UpToDate(files1, x, tables);
        UpToDateKept(files1, targets[1..], tables, copyAll, x);
      }
    }
  }

  /**
    updateHandler (lb-update-update.js:63-80): the targets are updated one
    after another; a model without a datasource ends the `--all` scan after
    the models before it were updated.
   */
  function UpdateHandler(files: map<string, ModelDef>, datasource: string, modelNames: seq<string>, app: seq<AppModel>, all: bool,
                         tables: map<string, seq<Column>>, copyAll: bool): (r: UpdateRun)
    requires WellFormedTables(tables)
    ensures var run := UpdateModels(files, UpdateTargets(datasource, modelNames, app, all).names, tables, copyAll);
            && r.files == run.files
            && (r.failure.None? <==> run.failure.None? && (all ==> forall a :: a in app ==> a.dataSource.Some?))
            && (run.failure.Some? ==> r.failure == run.failure)
  {
    var targets := UpdateTargets(datasource, modelNames, app, all);
    var run := UpdateModels(files, targets.names, tables, copyAll);
    if run.failure.None? && targets.unset.Some? then run.(failure := targets.unset) else run
  }
}
